=== FILE: README.md ===
# family-planner: the record store, the snapshot cache and the data rules

A Dafny model of the data core of the family-planner household organizer, a
browser app built on IndexedDB. The DOM glue is left out. The model covers:

- **The keyed record store** (`js/ds.js`). It has five object stores: tasks,
  stores, shoppingLists, familyMembers and journalEntries. Each one is a map
  from key to record plus a key generator, following section 2.11 ("Key
  generators") of the W3C Indexed Database API.
  - `initDB` creates the stores that are missing.
  - `dbRequest` wraps `add`, `put`, `get` and `getAll`, each as one atomic
    step. It has the source's reject and resolve rules:
    - it rejects before the database is open;
    - a read-write request resolves `request.result || request.source.key`.
- **The snapshot cache** (`loadAppData` and `toggleShoppingItem` in `js/main.js`
  and `main.js`). The snapshot is replaced only after all five `getAll`s
  resolve. The toggle patches one cached item in place and then writes it.
- **The form handlers.**
  - Those of `js/main.js`'s `masterSubmitHandler`: task-form, add-member-form,
    add-list-form, add-item-form and journal-form.
  - Those `js/ui.js` attaches to its own forms: the list-detail add-item form,
    the task modal, the settings modal and the journal-entry modal.
  - Each handler is a pure state transition. It returns a `Step` holding the
    new page state (database, `appData` snapshot, current view) and how the
    awaited promise settled.
  - Writes made before a later rejection stay.
- **The derivations the views compute** (`js/ui.js`, `utils.js`):
  - the dashboard's split of today's tasks;
  - the shopping counts;
  - a store's list;
  - the calendar's events;
  - the `getTaskIcon` table;
  - the empty branch of `formatTime`.

Modules follow the program:

- `KeyGenerators`, `ObjectStores` and `Database` model `js/ds.js`.
- `Records` holds the five record types and JavaScript truthiness on numbers.
- `AppState` holds the cache, `loadAppData`, `switchView`, the journal's
  in-place sort and `toggleShoppingItem`.
- `Handlers` holds `js/main.js`'s submit handler.
- `Modals` holds `js/ui.js`'s form listeners.
- `Views` holds `js/ui.js`'s render data.
- `Utils` models `utils.js`.
- `Strings`, `Sequences` and `Wrappers` are helpers.

A numeric input that may be `NaN`, `undefined` or `null` is an `Option<int>`,
where `None` stands for all three. `Records.Truthy` is JavaScript's truth test
on such a value. The journal modal's parameters are a `Records.Param`, which
keeps `NaN` apart from `undefined`, because a record whose `id` is `NaN` cannot
be stored.

Two behaviours of the code shape the model:

- Besides `toggleShoppingItem`, `renderJournal` also mutates the cache in
  place: it sorts `appData.journalEntries` newest first (js/ui.js:87).
  `AppState.RenderJournal` therefore returns the reordered cache. Every
  `switchView('journal')` runs it, and so does the journal-form's re-render.
  After a save in the journal view, the cached entries hold exactly the
  stored entries but are no longer in key order (`AppState.Shown`).
  Leaving the journal view does not restore key order, so until the next
  reload the invariant is the order-free `AppState.Reflects`, which switching
  views and toggling an item both keep.
- In `js/main.js` the task-form for a numeric id with no stored task reads
  `task.journalEntryId` of `undefined`. That is a TypeError, raised before
  anything is written (`Handlers.CarriedForForm`). The task modal in
  `js/ui.js` writes a new task under that id instead
  (`Modals.SaveTaskModal`).

## Model

| member | source | states |
|---|---|---|
| KeyGenerators.Generate | js/ds.js:33 | generation fails exactly when the counter is past 2^53; otherwise the key is the counter and the counter moves on by one; the key is at least 1, and is used by no record the generator has covered; the new counter covers the key too |
| KeyGenerators.PossiblyUpdate | js/ds.js:33 | an explicit key below the counter leaves it alone; a key from the counter up to 2^53 sets the counter to that key plus one; a larger key sets it to 2^53 + 1; a larger key exhausts the generator; the counter never decreases and keeps covering every stored key |
| ObjectStores.Empty | js/ds.js:33 | a newly created store has no records and a fresh generator starting at 1 |
| ObjectStores.Write | js/ds.js:41-44 | with an explicit id, fails (ConstraintError) exactly when adding over an existing key; without an id, fails exactly when the generator is exhausted; on success the record is stored under the key and every other record is unchanged; a generated key is the generator's counter, fresh and at least 1; an explicit key possibly updates the generator |
| ObjectStores.Get | js/ds.js:43 | yields the record with its key as `id` exactly when the key is stored, otherwise undefined |
| ObjectStores.GetAll | js/ds.js:42 | yields every stored record once, each with its key as `id`, in ascending key order, and nothing else |
| ObjectStores.HoldsReordered | js/ui.js:87 | reordering a list that holds exactly a store's records still holds exactly them |
| ObjectStores.MirrorsUpdate | main.js:73-74 | overwriting one record in both a mirror list and its store keeps the list a mirror of the store |
| Records.OrUndefined | js/main.js:141 | the `or undefined` default: keeps a truthy number, and turns 0 and NaN into undefined |
| Database.Upgrade | js/ds.js:29-36 | afterwards exactly the five named stores exist; stores that were present are untouched; missing ones are created empty |
| Database.InitDb | js/ds.js:22-37 | a newer stored version fails to open; otherwise the version becomes 1, a first open creates all five stores, each empty with a fresh generator; an upgrade leaves exactly the five stores, and existing stores are kept |
| Database.Add | js/ds.js:41 | rejects "not initialized" before open and NotFoundError on a missing store; with an id it fails exactly when the id is taken; without one it stores under the generator's counter, a fresh key at least 1; no other record changes |
| Database.FirstKeysAreOneTwo | js/ds.js:33 | the first two records added without an id to a newly created store get keys 1 and 2 |
| Database.Put | js/ds.js:44 | with an id it always stores under that id, overwriting only that record; without an id it is exactly `add` |
| Database.Get | js/ds.js:43 | resolves on an open store; a missing key resolves to undefined rather than rejecting |
| Database.GetAll | js/ds.js:42 | resolves on an open store to exactly its records, in key order; rejects "not initialized" before open and NotFoundError on a missing store |
| Strings.Trim | js/main.js:114 | removes exactly the leading and trailing ECMAScript white space: the result is the middle slice, is empty exactly when the input is all white space, and starts and ends with a non-space |
| Strings.TrimIdempotent | js/main.js:122 | trimming a trimmed string changes nothing |
| Strings.Lower | js/main.js:124 | lower-cases character by character, keeps the length and leaves no upper-case ASCII letter |
| Strings.LexLeTotal | js/ui.js:16 | any two strings are ordered one way or the other by `localeCompare`'s order |
| Strings.LexLeTransitive | js/ui.js:16 | that order is transitive |
| Strings.LexLeAntisymmetric | js/ui.js:16 | strings ordered both ways are equal |
| Sequences.Filter | js/ui.js:15-17 | `Array.prototype.filter`: keeps each element that passes the test as often as it occurs, drops every other one, and never grows |
| Sequences.FilterKeepsOrder | js/ui.js:15-17 | `filter` keeps order: filtering a concatenation concatenates the filtered parts |
| Sequences.FilterCons | js/ui.js:15-17 | the first element is kept, ahead of the filtered rest, exactly when it passes |
| Sequences.FilterLength | js/ui.js:18 | the filtered list's length is the number of elements that pass |
| Sequences.CountPositive | js/ui.js:25 | that number is positive exactly when some element passes |
| Sequences.Insert | js/ui.js:16 | inserting into a sorted list gives a sorted list with that one element added |
| Sequences.SortByKey | js/ui.js:16 | `sort` with a key comparator yields a sorted permutation of its input |
| AppState.LoadAppData | js/main.js:13-24 | settles exactly when the database is open with all five stores; then the snapshot mirrors every store; a rejection leaves the page state unchanged, and the database and view are never changed |
| AppState.LoadAppDataIdempotent | main.js:18-29 | reloading right after a reload changes nothing |
| AppState.RenderJournal | js/ui.js:82-96 | the cached entries reordered newest date first, as a permutation; the rest of the cache unchanged |
| AppState.Rerender | js/main.js:39-46 | rendering the current view leaves the database and view alone; in the journal view the cached entries become a newest-first permutation of themselves; any other view changes nothing |
| AppState.SwitchView | js/main.js:26-46 | records the requested view and never touches the database; in the journal view the cached entries are re-sorted newest first, as a permutation; before the first load every rendered view fails with a TypeError after recording the view |
| AppState.RerenderShown | js/main.js:109 | rendering any view over a cache that mirrors the database shows exactly the database, with the journal newest first in the journal view |
| AppState.InSyncReflects | js/main.js:13-24 | a cache in step with the database, collection by collection in key order, holds exactly what the database holds |
| AppState.SwitchViewReflects | js/main.js:26-46 | switching to any view keeps the cache holding exactly what the database holds; the journal's renderer only reorders its entries |
| AppState.ToggleAfterJournal | js/main.js:26-46 | from a loaded cache, visiting the journal, the shopping view and a store's list and then toggling an item leaves the cache holding exactly the database's records, in whatever order the journal's sort left its entries |
| AppState.FindItem | js/main.js:64 | `find` by id: the first position holding that id, or none exactly when no item has it |
| AppState.ToggleShoppingItem | js/main.js:63-70 | before load it is a TypeError; an unknown id changes and writes nothing; otherwise exactly the first matching cached item gets `completed`, every other item and collection stays, and the write stores that item and changes no other record; a rejected write leaves the database alone |
| AppState.ToggleKeepsInSync | main.js:70-81 | a toggle on a cache that mirrors the database leaves a cache that still mirrors it |
| AppState.ToggleKeepsReflects | main.js:70-81 | a toggle on a cache that holds exactly what the database holds, in whatever order the journal was left, keeps it so |
| AppState.ToggleKeepsShown | main.js:70-81 | a toggle on a rendered page leaves it rendered, the journal entries in the order they had |
| Handlers.Reload | js/main.js:108 | after a write the data reloads: it succeeds exactly when all stores exist and then the cache mirrors the database; the write stays on failure |
| Handlers.Revisit | js/main.js:108-109 | `switchView` after a settled step: a failure passes through; otherwise the view is recorded, the database is unchanged, and a cache that mirrored the database still shows it, still in key order outside the journal view |
| Handlers.WriteTask | js/main.js:107-108 | the task is stored under the id, or under a fresh key when there is none; only the tasks store changes; the cache is reloaded |
| Handlers.CarriedForForm | js/main.js:96-105 | a NaN id carries no link; a numeric id carries the stored task's link, and a missing task is a TypeError |
| Handlers.SubmitTaskForm | js/main.js:95-111 | task-form: a NaN id creates a task under a fresh key with no link; a numeric id overwrites that task and keeps its link (or null); a numeric id with no task fails before writing; only tasks change; afterwards the cache shows the database, re-sorted in the journal view |
| Handlers.AddMember | js/main.js:113-117 | a blank name does nothing; otherwise exactly one member with the trimmed name is added under a fresh key, only familyMembers changes, and the cache is reloaded |
| Handlers.AddFamilyMember | js/main.js:113-119 | add-member-form: a blank name settles with nothing written; any other name ends in a TypeError from the settings re-render, after the member was added and reloaded, or in the write's own rejection |
| Handlers.FindStore | js/main.js:124 | the first cached store whose name equals the input ignoring case, or none exactly when no store matches |
| Handlers.AddList | js/main.js:121-128 | a blank name does nothing; a name matching a cached store ignoring case reuses its id and writes nothing; otherwise exactly one store with the trimmed name is added; on success the list-detail view opens |
| Handlers.AddItem | js/main.js:130-137 | a blank name or a NaN store id writes nothing; otherwise exactly one item `{storeId, trimmed name, completed: false}` is added, and only shoppingLists changes |
| Handlers.LinkTask | js/main.js:148-152 | a falsy task id or a missing task changes no task; an existing task gets only its `journalEntryId` set |
| Handlers.SaveJournalEntry | js/main.js:141-153 | the entry is stored dated today under its id or a fresh key; the given existing task is linked to that key and no other task changes; only journalEntries and tasks change |
| Handlers.SubmitJournalForm | js/main.js:139-156 | the entry id is the parsed journal id with 0 and NaN turned into undefined; a truthy id is the key written; in a well-formed database the key never resolves as undefined, so the task link is the saved key; in the journal view the entries are re-rendered newest first |
| Modals.ListDetailAddItem | js/ui.js:57-64 | a blank name does nothing; otherwise exactly one item of that store with the trimmed name is added, not completed |
| Modals.AddedItemIsListed | js/ui.js:47-64 | after adding from a store's page, that page's list shows the new item under its key |
| Modals.AddedMemberNameIsTrimmed | js/ui.js:119-126 | a member added from the settings modal has a non-blank name with nothing left to trim |
| Modals.OpenTaskModal | js/ui.js:100-101 | a truthy task id loads that task's link, or no link when it is missing; otherwise the task is empty |
| Modals.SaveTaskModal | js/ui.js:104-112 | a truthy id `put`s the task under it whether or not one is stored there; otherwise it is added under a fresh key; the loaded link is carried unchanged; only tasks change; `switchView(window.currentView)` then re-sorts the journal in the journal view |
| Modals.TaskModalKeepsJournalLink | js/ui.js:106 | editing an existing task through the modal keeps its journal link |
| Modals.TaskSavesAgree | js/ui.js:106-108 | for an existing task with a truthy link, the modal's save and `js/main.js`'s task-form store the same task |
| Modals.OpenJournalModal | js/ui.js:129-132 | the entry id is `journalId`, or `id` when `journalId` is falsy, NaN kept apart from undefined; loading it fails exactly when the id is truthy and the journal store cannot be reached |
| Modals.WriteJournalModal | js/ui.js:135-143 | the entry is `put` dated today under the modal's numeric id, or a fresh key when it is undefined; a NaN id is a DataError and writes nothing; a truthy task id whose task exists gets the key as its link, and otherwise no task changes; only journalEntries and tasks change |
| Modals.SaveJournalModal | js/ui.js:135-146 | the writes above; in the journal view the argument-less `renderJournal()` then fails with a TypeError after the writes and reload; elsewhere it settles as the writes did |
| Modals.JournalModalLinksTask | js/ui.js:139-141 | saving from a modal opened on an existing task sets that task's `journalEntryId` to the saved key and nothing else about it, for any entry id but 0 |
| Views.TimedTasks | js/ui.js:16 | exactly today's tasks that have a time, sorted ascending by time |
| Views.DailyTasks | js/ui.js:17 | exactly today's tasks with an empty time |
| Views.RenderDashboard | js/ui.js:12-30 | the timed and daily lists as above; the count of items not completed; "No timed events" exactly when no task today has a time; the shopping row exactly when some item is needed; "No daily tasks." exactly when there is no daily task and nothing is needed |
| Views.DashboardSplitsToday | js/ui.js:15-17 | every task dated today is in exactly one of the two lists, and no other day's task is in either |
| Views.Summary | js/ui.js:39-40 | a store's items are exactly those with its id, and its needed count is the number not completed, never more than the item count |
| Views.RenderShopping | js/ui.js:32-45 | one summary per cached store, in cache order |
| Views.StoreTitle | js/ui.js:49-51 | the name of the first store with the id, or "" when there is none |
| Views.RenderListDetail | js/ui.js:47-53 | the title as above and exactly the items whose `storeId` is the store's id |
| Views.CalendarEvents | js/ui.js:73 | exactly the tasks with a non-empty time |
| Utils.TaskIcon | utils.js:16-27 | each of the eight types gets its listed icon, and every other string gets `fa-calendar-day`; every result is an `fa-` class |
| Utils.TaskIconsDistinct | utils.js:17-25 | the eight icons are pairwise distinct and none is the default |
| Utils.TaskIconAsWritten | utils.js:17-26 | the object-literal lookup: the table's icon, the default, or an inherited member for the `Object.prototype` names |
| Utils.AsWrittenAgreesOffInherited | utils.js:16-27 | the lookup as written agrees with the intended one exactly for the types that are not `Object.prototype` names |
| Utils.ToStringEscapesDefault | utils.js:26 | type "toString" gets the inherited function, not the default icon |
| Utils.FormatTime | utils.js:9 | an empty or missing time formats as "" |

## Left out

- HTML building, `innerHTML`, class toggling, the fab and nav wiring, inline `onclick` and the `window` exposure: these are view plumbing. Opening and closing modals is modelled only as far as the data their saves use.
- FullCalendar construction (js/ui.js:70-79) is a foreign library. Only the list of events passed to it is modelled.
- The IndexedDB engine itself: transactions, request callbacks, `versionchange` and blocked events, and promise scheduling. Each store operation and `Promise.all` is one atomic step, and two handlers never interleave.
- Errors a transaction can raise besides not-open, missing store, key in use and generator exhaustion (quota, abort, I/O) are not modelled. Neither is an `open` failure other than a newer stored version.
- Keys are integers. IndexedDB also allows fractional, string, date and array keys, but the application only ever produces integers or NaN.
- Collection names are the five fixed collections. A request naming any other collection cannot be written, because every call site uses one of the five literals.
- `loadAppData`'s `|| []` defaults are not modelled: `getAll` always resolves to an array, so they never apply.
- The current date is the parameter `today`.
- `formatTime`'s non-empty branch and every `toLocaleDateString`/`toLocaleTimeString` call depend on date parsing and the locale.
- Utils.FormatTime: only the empty branch is stated. The non-empty branch is handed to the parameter `localized`, and nothing is promised about it.
- `toLowerCase` is modelled on ASCII letters only. `localeCompare` is modelled as code-unit order.
- Sequences.SortByKey: its stability, which `Array.prototype.sort` also guarantees, is not stated.
- `seedInitialData` and the `db.js` it lives in are not part of this model.
- js/ui.js imports `loadAppData` and `switchView` from `./main.js`, but js/main.js exports nothing. That import is a SyntaxError when the modules are linked, so js/ui.js, and js/main.js, which imports it, never run. `Modals` models js/ui.js's listeners as if those two names resolved to the functions `main.js` puts on `window`.
- js/main.js keeps its cache in its own `appData` and never assigns `window.appData`, which js/ui.js's modal renderers read (js/ui.js:103, 118). `Handlers.AddFamilyMember` models the resulting TypeError on js/main.js's own path. `Modals` models the modals as `main.js` drives them, where `window.appData` is the cache.
- `closeModal` in js/ui.js resolves to `window.closeModal`. Closing a modal is view plumbing.
- `renderJournal()` with no argument (js/ui.js:144) is modelled only as the TypeError it raises (`Modals.SaveJournalModal`). The HTML it would have built is not modelled.
- `switchView`'s class toggles and fab wiring are view plumbing. Only the view it records and the journal's in-place sort are modelled.
- Modals.JournalModalLinksTask: an entry id of 0 is excluded. The entry is stored under 0, the write resolves as undefined, and the task's link becomes undefined rather than the key.

## Findings

| source | as written | input that shows it | evidently intended | confidence | as-written member | corrected member |
|---|---|---|---|---|---|---|
| utils.js:17-26 | the icon is looked up by indexing a plain object literal, with `'fa-calendar-day'` as the fallback for a falsy result | a task whose type is "toString" (or "constructor", "__proto__", "valueOf", …) yields the member inherited from `Object.prototype`, a truthy non-string, instead of the default icon | every type outside the eight listed keys gets `fa-calendar-day` | low, not executed: the type select offers only the eight keys, so only a task stored with another type reaches it | Utils.TaskIconAsWritten | Utils.TaskIcon |

=== FILE: appstate.dfy ===
/**
 * The application state of the entry modules (js/main.js, and main.js, which
 * exposes the same functions on `window`): the `db` handle, the `appData`
 * snapshot of all five collections and the current view, with `loadAppData`,
 * `switchView` and `toggleShoppingItem`.
 */
module AppState {
  import opened Wrappers
  import opened Errors
  import opened KeyGenerators
  import opened Records
  import opened Sequences
  import ObjectStores
  import Db = Database

  /** `appData` once loaded: the five `getAll` results. */
  datatype AppData = AppData(
    tasks: seq<Keyed<Task>>,
    stores: seq<Keyed<Store>>,
    shoppingLists: seq<Keyed<ShoppingItem>>,
    familyMembers: seq<Keyed<FamilyMember>>,
    journalEntries: seq<Keyed<JournalEntry>>)

  /**
   * The state one page holds: the `db` handle, `appData` (`None` while it is
   * still the initial `{}`) and `currentView`.
   */
  datatype App = App(db: Db.Handle, data: Option<AppData>, view: string)

  /** The state after an awaited step, and how the step settled. */
  datatype Step<T> = Step(app: App, result: Result<T, Error>)

  const InitialView: string := "dashboard"

  /** The page as loaded: `appData = {}` and the dashboard, over whatever `db` holds. */
  function Initial(h: Db.Handle): (a: App)
    ensures a.db == h && a.data.None? && a.view == InitialView
  {
    App(h, None, InitialView)
  }

  /** The cache holds exactly what the open database holds, collection by collection. */
  predicate InSync(a: App) {
    && a.db.Some? && Db.AllPresent(a.db.value) && a.data.Some?
    && ObjectStores.Mirrors(a.data.value.tasks, a.db.value.tasks.value)
    && ObjectStores.Mirrors(a.data.value.stores, a.db.value.stores.value)
    && ObjectStores.Mirrors(a.data.value.shoppingLists, a.db.value.shoppingLists.value)
    && ObjectStores.Mirrors(a.data.value.familyMembers, a.db.value.familyMembers.value)
    && ObjectStores.Mirrors(a.data.value.journalEntries, a.db.value.journalEntries.value)
  }

  /**
   * `loadAppData`: five `getAll`s awaited together with `Promise.all`; the
   * snapshot replaces `appData` only once all five have resolved, so a
   * rejection (the first in list order) leaves the page state as it was.
   */
  function LoadAppData(a: App): (r: Step<()>)
    ensures r.app.db == a.db && r.app.view == a.view
    ensures r.result.Ok? <==> a.db.Some? && Db.AllPresent(a.db.value)
    ensures r.result.Ok? ==> InSync(r.app)
    ensures r.result.Err? ==> r.app == a
    ensures r.result.Err? ==> r.result.error == (if a.db.None? then NotInitialized else NotFoundError)
  {
    var tasks := Db.GetAll(Db.Locate(a.db, Db.TasksOf));
    var stores := Db.GetAll(Db.Locate(a.db, Db.StoresOf));
    var items := Db.GetAll(Db.Locate(a.db, Db.ShoppingListsOf));
    var members := Db.GetAll(Db.Locate(a.db, Db.FamilyMembersOf));
    var entries := Db.GetAll(Db.Locate(a.db, Db.JournalEntriesOf));
    if tasks.Err? then Step(a, Err(tasks.error))
    else if stores.Err? then Step(a, Err(stores.error))
    else if items.Err? then Step(a, Err(items.error))
    else if members.Err? then Step(a, Err(members.error))
    else if entries.Err? then Step(a, Err(entries.error))
    else
      var data := AppData(tasks.value, stores.value, items.value, members.value, entries.value);
      Step(a.(data := Some(data)), Ok(()))
  }

  /** Reloading twice in a row gives the same snapshot as reloading once. */
  lemma LoadAppDataIdempotent(a: App)
    requires a.db.Some? && Db.AllPresent(a.db.value)
    ensures LoadAppData(LoadAppData(a).app) == LoadAppData(a)
  {
  }

  function EntryDate(e: Keyed<JournalEntry>): string { e.value.date }

  /**
   * `renderJournal`: the entries newest date first.  The source sorts
   * `appData.journalEntries` in place, so the cache itself is reordered; the
   * result is the cache afterwards, whose `journalEntries` is the list shown.
   */
  function RenderJournal(data: AppData): (r: AppData)
    ensures r.(journalEntries := data.journalEntries) == data
    ensures multiset(r.journalEntries) == multiset(data.journalEntries)
    ensures SortedBy(r.journalEntries, EntryDate, true)
  {
    if |data.journalEntries| == 0 then data
    else data.(journalEntries := SortByKey(data.journalEntries, EntryDate, true))
  }

  /** The views `switchView` has a renderer for; each reads `appData`'s collections. */
  const RenderedViews: set<string> := {"dashboard", "shopping", "list-detail", "calendar", "journal"}

  /**
   * What rendering the current view does to the cache: the journal view
   * re-sorts the cached entries in place; every other view only reads.
   */
  function Rerender(a: App): (r: App)
    ensures r.db == a.db && r.view == a.view
    ensures a.view != "journal" || a.data.None? ==> r == a
    ensures a.view == "journal" && a.data.Some? ==>
              && r.data.Some?
              && r.data.value.(journalEntries := a.data.value.journalEntries) == a.data.value
              && multiset(r.data.value.journalEntries) == multiset(a.data.value.journalEntries)
              && SortedBy(r.data.value.journalEntries, EntryDate, true)
  {
    if a.view == "journal" && a.data.Some? then a.(data := Some(RenderJournal(a.data.value))) else a
  }

  /**
   * `switchView`: records the view, then runs its renderer on `appData`.  The
   * journal's renderer re-sorts the cached entries; before the first load
   * `appData` is `{}` and every renderer fails on it with a TypeError, after
   * the view has been recorded.
   */
  function SwitchView(a: App, viewName: string): (r: Step<()>)
    ensures r.app.view == viewName && r.app.db == a.db
    ensures viewName != "journal" ==> r.app.data == a.data
    ensures viewName == "journal" && a.data.Some? ==>
              && r.app.data.Some?
              && r.app.data.value.(journalEntries := a.data.value.journalEntries) == a.data.value
              && multiset(r.app.data.value.journalEntries) == multiset(a.data.value.journalEntries)
              && SortedBy(r.app.data.value.journalEntries, EntryDate, true)
    ensures r.result.Err? <==> a.data.None? && viewName in RenderedViews
    ensures r.result.Err? ==> r.result.error == TypeError && r.app == a.(view := viewName)
  {
    var moved := a.(view := viewName);
    if a.data.None? && viewName in RenderedViews then Step(moved, Err(TypeError))
    else Step(Rerender(moved), Ok(()))
  }

  /**
   * The cache holds exactly what the database holds, whatever order the
   * journal's in-place sort left its entries in: the other four collections
   * mirror their stores and the journal entries are the journal store's
   * records in some order.  Unlike `InSync`, it survives leaving the journal
   * view, where nothing restores key order before the next reload.
   */
  predicate Reflects(a: App) {
    && a.db.Some? && Db.AllPresent(a.db.value) && a.data.Some?
    && ObjectStores.Mirrors(a.data.value.tasks, a.db.value.tasks.value)
    && ObjectStores.Mirrors(a.data.value.stores, a.db.value.stores.value)
    && ObjectStores.Mirrors(a.data.value.shoppingLists, a.db.value.shoppingLists.value)
    && ObjectStores.Mirrors(a.data.value.familyMembers, a.db.value.familyMembers.value)
    && ObjectStores.Holds(a.data.value.journalEntries, a.db.value.journalEntries.value)
  }

  /** A cache in step with the database reflects it. */
  lemma InSyncReflects(a: App)
    requires InSync(a)
    ensures Reflects(a)
  {
  }

  /**
   * The cache once the current view has been rendered over a fresh load: it
   * reflects the database, with the journal entries newest first in the
   * journal view and in key order in every other view.
   */
  predicate Shown(a: App) {
    && Reflects(a)
    && (a.view == "journal" ==> SortedBy(a.data.value.journalEntries, EntryDate, true))
    && (a.view != "journal" ==> ObjectStores.Mirrors(a.data.value.journalEntries, a.db.value.journalEntries.value))
  }

  /**
   * Switching views keeps the cache reflecting the database: the journal's
   * renderer only reorders the cached entries, and every other renderer
   * only reads.
   */
  lemma {:induction false} SwitchViewReflects(a: App, viewName: string)
    requires Reflects(a)
    ensures Reflects(SwitchView(a, viewName).app)
  {
    if viewName == "journal" {
      var r := SwitchView(a, viewName).app;
      ObjectStores.HoldsReordered(a.data.value.journalEntries, r.data.value.journalEntries,
                                  a.db.value.journalEntries.value);
    }
  }

  /** Rendering the current view over a cache in step with the database shows it. */
  lemma {:induction false} RerenderShown(a: App)
    requires InSync(a)
    ensures Shown(Rerender(a))
  {
    if a.view == "journal" {
      var r := Rerender(a);
      ObjectStores.HoldsReordered(a.data.value.journalEntries, r.data.value.journalEntries,
                                  a.db.value.journalEntries.value);
    }
  }

  /** The position of the first item whose id is `id` (`Array.prototype.find`). */
  function FindItem(items: seq<Keyed<ShoppingItem>>, id: Key): (r: Option<nat>)
    ensures r.None? <==> forall i :: 0 <= i < |items| ==> items[i].id != id
    ensures r.Some? ==> r.value < |items| && items[r.value].id == id
    ensures r.Some? ==> forall i :: 0 <= i < r.value ==> items[i].id != id
  {
    if items == [] then None
    else if items[0].id == id then Some(0)
    else
      match FindItem(items[1..], id)
      case None => None
      case Some(i) => Some(i + 1)
  }

  /** The item with `completed` set, everything else about it kept. */
  function WithCompleted(item: Keyed<ShoppingItem>, isChecked: bool): (r: Keyed<ShoppingItem>)
    ensures r.id == item.id && r.value.completed == isChecked
    ensures r.value.storeId == item.value.storeId && r.value.name == item.value.name
  {
    item.(value := item.value.(completed := isChecked))
  }

  /**
   * `toggleShoppingItem`: sets `completed` on the cached item in place, then
   * `put`s that item.  The cache is patched before the write is awaited, so a
   * rejected write leaves the patched cache behind.  An id the cache does not
   * hold changes nothing and writes nothing.
   */
  function ToggleShoppingItem(a: App, itemId: Key, isChecked: bool): (r: Step<()>)
    ensures a.data.None? ==> r == Step(a, Err(TypeError))
    ensures a.data.Some? && (forall x :: x in a.data.value.shoppingLists ==> x.id != itemId) ==>
              r == Step(a, Ok(()))
    ensures r.app.view == a.view
    ensures a.data.Some? && (exists x :: x in a.data.value.shoppingLists && x.id == itemId) ==>
              ToggledInCache(a.data.value, r.app.data, itemId, isChecked)
    ensures r.result.Ok? && a.data.Some? && FindItem(a.data.value.shoppingLists, itemId).Some? ==>
              var i := FindItem(a.data.value.shoppingLists, itemId).value;
              ToggledInStore(a.db, r.app.db, WithCompleted(a.data.value.shoppingLists[i], isChecked))
    ensures r.result.Err? ==> r.app.db == a.db
  {
    match a.data
    case None => Step(a, Err(TypeError))
    case Some(data) =>
      match FindItem(data.shoppingLists, itemId)
      case None => Step(a, Ok(()))
      case Some(i) =>
        var item := WithCompleted(data.shoppingLists[i], isChecked);
        var patched := a.(data := Some(data.(shoppingLists := data.shoppingLists[i := item])));
        match Db.Put(Db.Locate(a.db, Db.ShoppingListsOf), Some(item.id), item.value)
        case Err(e) => Step(patched, Err(e))
        case Ok((s, _)) => Step(patched.(db := Some(a.db.value.(shoppingLists := Some(s)))), Ok(()))
  }

  /**
   * A toggle that settles keeps the cache and the database in step: the item
   * patched in place is exactly the record the `put` stored.
   */
  lemma {:induction false} ToggleKeepsInSync(a: App, itemId: Key, isChecked: bool)
    requires InSync(a)
    ensures var r := ToggleShoppingItem(a, itemId, isChecked);
            r.result.Ok? ==> InSync(r.app)
  {
    var r := ToggleShoppingItem(a, itemId, isChecked);
    var xs := a.data.value.shoppingLists;
    if FindItem(xs, itemId).Some? && r.result.Ok? {
      var i := FindItem(xs, itemId).value;
      var item := WithCompleted(xs[i], isChecked);
      ToggleSettled(a, itemId, isChecked);
      var before := a.db.value.shoppingLists.value;
      var after := r.app.db.value.shoppingLists.value;
      ObjectStores.MirrorsUpdate(xs, before, i, item.value);
      assert ObjectStores.Mirrors(xs[i := item], after);
      InSyncShoppingUpdate(a, xs[i := item], after);
    }
  }

  /** Replacing only the shopping list, in cache and database alike, by a mirrored pair keeps them in step. */
  lemma {:induction false} InSyncShoppingUpdate(a: App, items: seq<Keyed<ShoppingItem>>, s: ObjectStores.ObjectStore<ShoppingItem>)
    requires InSync(a) && ObjectStores.Mirrors(items, s)
    ensures InSync(a.(data := Some(a.data.value.(shoppingLists := items)),
                      db := Some(a.db.value.(shoppingLists := Some(s)))))
  {
  }

  /**
   * A toggle keeps a cache that reflects the database reflecting it, so a
   * toggle made after the journal view re-sorted the cached entries, and the
   * page has moved on to a store's list, is covered too.
   */
  lemma {:induction false} ToggleKeepsReflects(a: App, itemId: Key, isChecked: bool)
    requires Reflects(a)
    ensures var r := ToggleShoppingItem(a, itemId, isChecked);
            r.result.Ok? ==> Reflects(r.app)
  {
    var r := ToggleShoppingItem(a, itemId, isChecked);
    var xs := a.data.value.shoppingLists;
    if FindItem(xs, itemId).Some? && r.result.Ok? {
      var i := FindItem(xs, itemId).value;
      var item := WithCompleted(xs[i], isChecked);
      ToggleSettled(a, itemId, isChecked);
      var before := a.db.value.shoppingLists.value;
      var after := r.app.db.value.shoppingLists.value;
      ObjectStores.MirrorsUpdate(xs, before, i, item.value);
      assert ObjectStores.Mirrors(xs[i := item], after);
      ReflectsShoppingUpdate(a, xs[i := item], after);
    }
  }

  /** Replacing only the shopping list, in cache and database alike, by a mirrored pair keeps the cache reflecting the database. */
  lemma {:induction false} ReflectsShoppingUpdate(a: App, items: seq<Keyed<ShoppingItem>>, s: ObjectStores.ObjectStore<ShoppingItem>)
    requires Reflects(a) && ObjectStores.Mirrors(items, s)
    ensures Reflects(a.(data := Some(a.data.value.(shoppingLists := items)),
                        db := Some(a.db.value.(shoppingLists := Some(s)))))
  {
  }

  /**
   * The page's usual route to a toggle: from a cache in step with the
   * database, visit the journal (which re-sorts the cached entries), then the
   * shopping view, then a store's list, and toggle an item there.  The cache
   * is then no longer in key order, but it still reflects the database.
   */
  lemma {:induction false} ToggleAfterJournal(a: App, itemId: Key, isChecked: bool)
    requires InSync(a)
    ensures var b := SwitchView(SwitchView(SwitchView(a, "journal").app, "shopping").app, "list-detail").app;
            var r := ToggleShoppingItem(b, itemId, isChecked);
            b.view == "list-detail" && (r.result.Ok? ==> Reflects(r.app))
  {
    InSyncReflects(a);
    var j := SwitchView(a, "journal").app;
    SwitchViewReflects(a, "journal");
    var sh := SwitchView(j, "shopping").app;
    SwitchViewReflects(j, "shopping");
    var b := SwitchView(sh, "list-detail").app;
    SwitchViewReflects(sh, "list-detail");
    ToggleKeepsReflects(b, itemId, isChecked);
  }

  /**
   * A toggle on a rendered page leaves it rendered: the cache still reflects
   * the database and the journal entries keep their order.
   */
  lemma {:induction false} ToggleKeepsShown(a: App, itemId: Key, isChecked: bool)
    requires Shown(a)
    ensures var r := ToggleShoppingItem(a, itemId, isChecked);
            r.result.Ok? ==> Shown(r.app)
  {
    var r := ToggleShoppingItem(a, itemId, isChecked);
    ToggleKeepsReflects(a, itemId, isChecked);
    if FindItem(a.data.value.shoppingLists, itemId).Some? && r.result.Ok? {
      ToggleSettled(a, itemId, isChecked);
      assert r.app.data.value.journalEntries == a.data.value.journalEntries;
      assert r.app.db.value.journalEntries == a.db.value.journalEntries;
    }
  }

  /** The page after a toggle that found its item and settled: only the shopping list changed, in both places. */
  lemma ToggleSettled(a: App, itemId: Key, isChecked: bool)
    requires a.data.Some? && FindItem(a.data.value.shoppingLists, itemId).Some?
    requires ToggleShoppingItem(a, itemId, isChecked).result.Ok?
    ensures var r := ToggleShoppingItem(a, itemId, isChecked);
            var xs := a.data.value.shoppingLists;
            var i := FindItem(xs, itemId).value;
            var item := WithCompleted(xs[i], isChecked);
            && a.db.Some? && a.db.value.shoppingLists.Some?
            && r.app.db.Some? && r.app.db.value.shoppingLists.Some?
            && r.app.db.value.shoppingLists.value.records
                 == a.db.value.shoppingLists.value.records[item.id := item.value]
            && r.app == a.(data := Some(a.data.value.(shoppingLists := xs[i := item])),
                           db := Some(a.db.value.(shoppingLists := r.app.db.value.shoppingLists)))
  {
  }

  /**
   * The cache after a toggle: the first item with that id has `completed` set,
   * every other item and the other four collections are as they were.
   */
  predicate ToggledInCache(before: AppData, after: Option<AppData>, itemId: Key, isChecked: bool) {
    && after.Some?
    && after.value.(shoppingLists := before.shoppingLists) == before
    && |after.value.shoppingLists| == |before.shoppingLists|
    && exists i :: 0 <= i < |before.shoppingLists| && before.shoppingLists[i].id == itemId
         && (forall j :: 0 <= j < i ==> before.shoppingLists[j].id != itemId)
         && after.value.shoppingLists[i] == WithCompleted(before.shoppingLists[i], isChecked)
         && (forall j :: 0 <= j < |before.shoppingLists| && j != i ==>
               after.value.shoppingLists[j] == before.shoppingLists[j])
  }

  /**
   * The database after a toggle's write: the patched item is stored under its
   * id; no other record and no other collection changed.
   */
  predicate ToggledInStore(before: Db.Handle, after: Db.Handle, item: Keyed<ShoppingItem>) {
    && before.Some? && after.Some?
    && before.value.shoppingLists.Some? && after.value.shoppingLists.Some?
    && after.value.(shoppingLists := before.value.shoppingLists) == before.value
    && after.value.shoppingLists.value.records
         == before.value.shoppingLists.value.records[item.id := item.value]
  }
}

=== FILE: database.dfy ===
/**
 * The database module of the application: the five object stores `initDB`
 * creates and the `dbRequest` wrapper behind `dbOperations.add`, `put`, `get`
 * and `getAll`.  Each operation is one atomic step; a rejected operation
 * yields no new object store, so the caller keeps the database it had.
 */
module Database {
  import opened Wrappers
  import opened Errors
  import opened KeyGenerators
  import opened Records
  import ObjectStores

  type ObjectStore<V> = ObjectStores.ObjectStore<V>

  const DbName: string := "HomeHubDB_v14"
  const DbVersion: nat := 1

  /** The object stores `initDB` makes sure of, in the order the code lists them. */
  const CollectionNames: seq<string> := ["tasks", "stores", "shoppingLists", "familyMembers", "journalEntries"]

  /** A database: its version and its object stores, `None` for one not created. */
  datatype Database = Database(
    version: nat,
    tasks: Option<ObjectStore<Task>>,
    stores: Option<ObjectStore<Store>>,
    shoppingLists: Option<ObjectStore<ShoppingItem>>,
    familyMembers: Option<ObjectStore<FamilyMember>>,
    journalEntries: Option<ObjectStore<JournalEntry>>)

  /** `db.objectStoreNames`. */
  function ObjectStoreNames(db: Database): set<string> {
    (if db.tasks.Some? then {"tasks"} else {})
    + (if db.stores.Some? then {"stores"} else {})
    + (if db.shoppingLists.Some? then {"shoppingLists"} else {})
    + (if db.familyMembers.Some? then {"familyMembers"} else {})
    + (if db.journalEntries.Some? then {"journalEntries"} else {})
  }

  predicate AllPresent(db: Database) {
    db.tasks.Some? && db.stores.Some? && db.shoppingLists.Some?
    && db.familyMembers.Some? && db.journalEntries.Some?
  }

  /** Every object store present keeps its keys below its generator. */
  predicate Valid(db: Database) {
    && (db.tasks.Some? ==> ObjectStores.Valid(db.tasks.value))
    && (db.stores.Some? ==> ObjectStores.Valid(db.stores.value))
    && (db.shoppingLists.Some? ==> ObjectStores.Valid(db.shoppingLists.value))
    && (db.familyMembers.Some? ==> ObjectStores.Valid(db.familyMembers.value))
    && (db.journalEntries.Some? ==> ObjectStores.Valid(db.journalEntries.value))
  }

  /** The module-level `db` variable: `None` until `initDB` has opened the database. */
  type Handle = Option<Database>

  /** `createObjectStore` for each of the five names not yet present; present ones are kept. */
  function Upgrade(db: Database): (r: Database)
    ensures ObjectStoreNames(r) == set n | n in CollectionNames
    ensures AllPresent(r)
    ensures db.tasks.Some? ==> r.tasks == db.tasks
    ensures db.stores.Some? ==> r.stores == db.stores
    ensures db.shoppingLists.Some? ==> r.shoppingLists == db.shoppingLists
    ensures db.familyMembers.Some? ==> r.familyMembers == db.familyMembers
    ensures db.journalEntries.Some? ==> r.journalEntries == db.journalEntries
    ensures db.tasks.None? ==> r.tasks.value == ObjectStores.Empty()
    ensures db.stores.None? ==> r.stores.value == ObjectStores.Empty()
    ensures db.shoppingLists.None? ==> r.shoppingLists.value == ObjectStores.Empty()
    ensures db.familyMembers.None? ==> r.familyMembers.value == ObjectStores.Empty()
    ensures db.journalEntries.None? ==> r.journalEntries.value == ObjectStores.Empty()
    ensures Valid(db) ==> Valid(r)
  {
    Database(
      db.version,
      if db.tasks.Some? then db.tasks else Some(ObjectStores.Empty()),
      if db.stores.Some? then db.stores else Some(ObjectStores.Empty()),
      if db.shoppingLists.Some? then db.shoppingLists else Some(ObjectStores.Empty()),
      if db.familyMembers.Some? then db.familyMembers else Some(ObjectStores.Empty()),
      if db.journalEntries.Some? then db.journalEntries else Some(ObjectStores.Empty()))
  }

  /** A database that has never been opened: version 0 and no object stores. */
  const Nothing: Database := Database(0, None, None, None, None, None)

  /**
   * `initDB`: opens `DbName` at `DbVersion`.  A database that does not exist yet,
   * or has an older version, goes through `onupgradeneeded`, which creates the
   * missing object stores; a database already at this version is opened as it
   * is; a newer one fails to open.
   */
  function InitDb(persisted: Option<Database>): (r: Result<Database, Error>)
    ensures r.Err? <==> persisted.Some? && persisted.value.version > DbVersion
    ensures r.Err? ==> r.error == VersionError
    ensures r.Ok? ==> r.value.version == DbVersion
    ensures r.Ok? && (persisted.None? || persisted.value.version < DbVersion) ==>
              ObjectStoreNames(r.value) == set n | n in CollectionNames
    ensures persisted.None? ==>
              (&& r.Ok? && Valid(r.value)
               && r.value.tasks == Some(ObjectStores.Empty())
               && r.value.stores == Some(ObjectStores.Empty())
               && r.value.shoppingLists == Some(ObjectStores.Empty())
               && r.value.familyMembers == Some(ObjectStores.Empty())
               && r.value.journalEntries == Some(ObjectStores.Empty()))
    ensures r.Ok? && persisted.Some? ==> ObjectStoreNames(persisted.value) <= ObjectStoreNames(r.value)
    ensures r.Ok? && persisted.Some? && persisted.value.tasks.Some? ==> r.value.tasks == persisted.value.tasks
    ensures r.Ok? && persisted.Some? && persisted.value.stores.Some? ==> r.value.stores == persisted.value.stores
    ensures r.Ok? && persisted.Some? && persisted.value.shoppingLists.Some? ==>
              r.value.shoppingLists == persisted.value.shoppingLists
    ensures r.Ok? && persisted.Some? && persisted.value.familyMembers.Some? ==>
              r.value.familyMembers == persisted.value.familyMembers
    ensures r.Ok? && persisted.Some? && persisted.value.journalEntries.Some? ==>
              r.value.journalEntries == persisted.value.journalEntries
    ensures r.Ok? && persisted.Some? && Valid(persisted.value) ==> Valid(r.value)
  {
    var current := if persisted.Some? then persisted.value else Nothing;
    if current.version > DbVersion then Err(VersionError)
    else if current.version < DbVersion then Ok(Upgrade(current).(version := DbVersion))
    else Ok(current)
  }

  /** The collections, as selectors for `Locate`. */
  function TasksOf(db: Database): Option<ObjectStore<Task>> { db.tasks }
  function StoresOf(db: Database): Option<ObjectStore<Store>> { db.stores }
  function ShoppingListsOf(db: Database): Option<ObjectStore<ShoppingItem>> { db.shoppingLists }
  function FamilyMembersOf(db: Database): Option<ObjectStore<FamilyMember>> { db.familyMembers }
  function JournalEntriesOf(db: Database): Option<ObjectStore<JournalEntry>> { db.journalEntries }

  /** `a` and `b` agree on the version and on every collection not named in `names`. */
  predicate SameExcept(a: Database, b: Database, names: set<string>) {
    && a.version == b.version
    && ("tasks" !in names ==> a.tasks == b.tasks)
    && ("stores" !in names ==> a.stores == b.stores)
    && ("shoppingLists" !in names ==> a.shoppingLists == b.shoppingLists)
    && ("familyMembers" !in names ==> a.familyMembers == b.familyMembers)
    && ("journalEntries" !in names ==> a.journalEntries == b.journalEntries)
  }

  /** Where a `dbRequest` for one collection lands. */
  datatype Target<V> = Uninitialized | Missing | Present(store: ObjectStore<V>)

  /** `db.transaction(storeName)`: fails before the database is open or when the store is missing. */
  function Locate<V>(h: Handle, collection: Database -> Option<ObjectStore<V>>): (t: Target<V>)
    ensures h.None? <==> t.Uninitialized?
    ensures h.Some? && collection(h.value).None? <==> t.Missing?
    ensures t.Present? ==> h.Some? && collection(h.value) == Some(t.store)
  {
    match h
    case None => Uninitialized
    case Some(db) =>
      (match collection(db)
       case None => Missing
       case Some(s) => Present(s))
  }

  /**
   * A read-write request resolves `request.result || request.source.key`; the
   * source is the object store, which has no `key`, so a key of 0 resolves to
   * undefined.
   */
  function Ack(k: Key): (r: Option<Key>)
    ensures r.Some? <==> k != 0
    ensures r.Some? ==> r.value == k
  {
    if k != 0 then Some(k) else None
  }

  /** `dbOperations.add`: insert; an explicit key already in use is a ConstraintError. */
  function Add<V>(t: Target<V>, id: Option<Key>, v: V): (r: Result<(ObjectStore<V>, Key), Error>)
    ensures t.Uninitialized? ==> r == Err(NotInitialized)
    ensures t.Missing? ==> r == Err(NotFoundError)
    ensures t.Present? && id.None? && ObjectStores.Valid(t.store) && !Exhausted(t.store.generator) ==>
              r.Ok? && r.value.1 !in t.store.records && r.value.1 >= 1
    ensures t.Present? && id.Some? ==> (r.Err? <==> id.value in t.store.records)
    ensures r.Ok? ==> t.Present? && r.value.0.records == t.store.records[r.value.1 := v]
    ensures r.Ok? && id.Some? ==> r.value.1 == id.value
    ensures r.Ok? && id.None? ==> r.value.1 == t.store.generator.current
    ensures r.Ok? && ObjectStores.Valid(t.store) ==> ObjectStores.Valid(r.value.0)
  {
    match t
    case Uninitialized => Err(NotInitialized)
    case Missing => Err(NotFoundError)
    case Present(s) => ObjectStores.Write(s, id, v, true)
  }

  /**
   * The first record added without an id to a newly created object store gets
   * key 1, and the next one key 2.
   */
  lemma {:induction false} FirstKeysAreOneTwo<V>(v: V, w: V)
    ensures var first := Add(Present(ObjectStores.Empty()), None, v);
            && first.Ok? && first.value.1 == 1
            && var second := Add(Present(first.value.0), None, w);
               second.Ok? && second.value.1 == 2
  {
    var first := Add(Present(ObjectStores.Empty<V>()), None, v);
    assert !Exhausted(ObjectStores.Empty<V>().generator);
    assert first.value.0.generator == Generator(2);
  }

  /** `dbOperations.put`: insert or overwrite; without an id it behaves like `add`. */
  function Put<V>(t: Target<V>, id: Option<Key>, v: V): (r: Result<(ObjectStore<V>, Key), Error>)
    ensures t.Uninitialized? ==> r == Err(NotInitialized)
    ensures t.Missing? ==> r == Err(NotFoundError)
    ensures t.Present? && id.Some? ==> r.Ok? && r.value.1 == id.value
    ensures t.Present? && id.None? && ObjectStores.Valid(t.store) && !Exhausted(t.store.generator) ==>
              r.Ok? && r.value.1 !in t.store.records && r.value.1 >= 1
    ensures r.Ok? ==> t.Present? && r.value.0.records == t.store.records[r.value.1 := v]
    ensures id.None? ==> r == Add(t, id, v)
    ensures r.Ok? && ObjectStores.Valid(t.store) ==> ObjectStores.Valid(r.value.0)
  {
    match t
    case Uninitialized => Err(NotInitialized)
    case Missing => Err(NotFoundError)
    case Present(s) => ObjectStores.Write(s, id, v, false)
  }

  /**
   * A write whose record's `id` is not a valid key (NaN): the request reaches
   * the object store and then throws a DataError, so nothing is stored.
   */
  function RejectInvalidKey<V>(t: Target<V>): (e: Error)
    ensures t.Uninitialized? ==> e == NotInitialized
    ensures t.Missing? ==> e == NotFoundError
    ensures t.Present? ==> e == DataError
  {
    match t
    case Uninitialized => NotInitialized
    case Missing => NotFoundError
    case Present(_) => DataError
  }

  /** `dbOperations.get`: the record under `k`, or undefined (not a rejection) when there is none. */
  function Get<V>(t: Target<V>, k: Key): (r: Result<Option<Keyed<V>>, Error>)
    ensures t.Uninitialized? ==> r == Err(NotInitialized)
    ensures t.Missing? ==> r == Err(NotFoundError)
    ensures t.Present? ==> r.Ok?
    ensures r.Ok? ==> (r.value.Some? <==> k in t.store.records)
    ensures r.Ok? && r.value.Some? ==> r.value.value == ObjectStores.Keyed(k, t.store.records[k])
  {
    match t
    case Uninitialized => Err(NotInitialized)
    case Missing => Err(NotFoundError)
    case Present(s) => Ok(ObjectStores.Get(s, k))
  }

  /** `dbOperations.getAll`: every record of the collection, each once, in key order. */
  function GetAll<V(==)>(t: Target<V>): (r: Result<seq<Keyed<V>>, Error>)
    ensures t.Uninitialized? ==> r == Err(NotInitialized)
    ensures t.Missing? ==> r == Err(NotFoundError)
    ensures t.Present? ==> r.Ok? && ObjectStores.Mirrors(r.value, t.store)
  {
    match t
    case Uninitialized => Err(NotInitialized)
    case Missing => Err(NotFoundError)
    case Present(s) => Ok(ObjectStores.GetAll(s))
  }
}

=== FILE: handlers.dfy ===
/**
 * The data rules of js/main.js's `masterSubmitHandler`, one function per form:
 * each awaits its reads and writes in order, stops at the first rejection
 * (earlier writes stay), and on success reloads `appData`.  The value a step
 * resolves to is the key the handler wrote, which the source itself discards.
 */
module Handlers {
  import opened Wrappers
  import opened Errors
  import opened KeyGenerators
  import opened Records
  import opened Strings
  import ObjectStores
  import Db = Database
  import opened AppState

  /** `await loadAppData()` after a write, then settle with `value`. */
  function Reload<T>(written: App, value: T): (r: Step<T>)
    ensures r.app.db == written.db && r.app.view == written.view
    ensures r.result.Ok? <==> written.db.Some? && Db.AllPresent(written.db.value)
    ensures r.result.Ok? ==> r.result.value == value && InSync(r.app)
    ensures r.result.Err? ==> r.app == written
  {
    var loaded := LoadAppData(written);
    match loaded.result
    case Ok(_) => Step(loaded.app, Ok(value))
    case Err(e) => Step(loaded.app, Err(e))
  }

  /**
   * `switchView(viewName)` once a step has settled: the view is recorded and
   * rendered, which in the journal view re-sorts the cached entries.  Over a
   * cache in step with the database the page then shows the database.
   */
  function Revisit<T>(s: Step<T>, viewName: string): (r: Step<T>)
    ensures s.result.Err? ==> r == s
    ensures s.result.Ok? ==> r.app.view == viewName
    ensures r.app.db == s.app.db
    ensures s.result.Ok? && InSync(s.app) ==> r.result == s.result && Shown(r.app)
    ensures s.result.Ok? && InSync(s.app) && viewName != "journal" ==> InSync(r.app)
  {
    if s.result.Err? then s
    else
      var v := SwitchView(s.app, viewName);
      assert InSync(s.app) ==> Shown(Rerender(s.app.(view := viewName))) by {
        if InSync(s.app) { RerenderShown(s.app.(view := viewName)); }
      }
      Step(v.app, if v.result.Err? then Err(v.result.error) else s.result)
  }

  /** The journal back-reference a stored task carries: its `journalEntryId || null`. */
  function CarriedJournalId(t: Task): (r: Option<Key>)
    ensures Truthy(t.journalEntryId) ==> r == t.journalEntryId
    ensures !Truthy(t.journalEntryId) ==> r.None?
  {
    if Truthy(t.journalEntryId) then t.journalEntryId else None
  }

  /** The fields of `#task-form`; `id` is `parseInt` of the hidden id field, `None` for NaN. */
  datatype TaskForm = TaskForm(id: Option<int>, name: string, kind: string, assignee: string, date: string, time: string)

  /** The task a submitted form describes, carrying `journalEntryId`. */
  function FormTask(form: TaskForm, journalEntryId: Option<Key>): Task {
    Task(form.name, form.kind, form.assignee, form.date, form.time, journalEntryId)
  }

  /**
   * Writes `t` into tasks (`add` when `noOverwrite`, else `put`) and reloads;
   * resolves to the key written.
   */
  function WriteTask(a: App, id: Option<Key>, t: Task, noOverwrite: bool): (r: Step<Key>)
    ensures r.result.Err? ==> r.app.data == a.data && r.app.view == a.view
    ensures r.result.Ok? ==> InSync(r.app) && r.app.view == a.view
    ensures r.result.Ok? ==>
              && a.db.Some? && a.db.value.tasks.Some?
              && Db.SameExcept(a.db.value, r.app.db.value, {"tasks"})
              && r.app.db.value.tasks.value.records == a.db.value.tasks.value.records[r.result.value := t]
              && (id.Some? ==> r.result.value == id.value)
              && (id.None? && ObjectStores.Valid(a.db.value.tasks.value) ==>
                    r.result.value !in a.db.value.tasks.value.records && r.result.value >= 1)
    ensures a.db.Some? && Db.Valid(a.db.value) && r.app.db.Some? ==> Db.Valid(r.app.db.value)
  {
    var tasks := Db.Locate(a.db, Db.TasksOf);
    var written := if noOverwrite then Db.Add(tasks, id, t) else Db.Put(tasks, id, t);
    match written
    case Err(e) => Step(a, Err(e))
    case Ok((s, k)) => Reload(a.(db := Some(a.db.value.(tasks := Some(s)))), k)
  }

  /**
   * The `journalEntryId` js/main.js carries: none for a NaN id; for a numeric
   * id the stored task's `journalEntryId || null`, a TypeError when there is
   * no such task.
   */
  function CarriedForForm(a: App, id: Option<int>): (r: Result<Option<Key>, Error>)
    ensures id.None? ==> r == Ok(None)
    ensures id.Some? && a.db.Some? && a.db.value.tasks.Some? ==>
              if id.value in a.db.value.tasks.value.records
              then r == Ok(CarriedJournalId(a.db.value.tasks.value.records[id.value]))
              else r == Err(TypeError)
    ensures r.Ok? && id.Some? ==> a.db.Some? && a.db.value.tasks.Some? && id.value in a.db.value.tasks.value.records
  {
    if id.None? then Ok(None)
    else
      match Db.Get(Db.Locate(a.db, Db.TasksOf), id.value)
      case Err(e) => Err(e)
      case Ok(None) => Err(TypeError)
      case Ok(Some(t)) => Ok(CarriedJournalId(t.value))
  }

  /**
   * task-form: without an id the task is `put` under a fresh key with no
   * journal link; with an id it is `put` under that id, keeping the stored
   * task's `journalEntryId` (or `null`).  An id with no stored task makes
   * `task.journalEntryId` a TypeError, before anything is written.  After
   * the reload, `switchView(currentView)` renders the current view again.
   */
  function SubmitTaskForm(a: App, form: TaskForm): (r: Step<Key>)
    ensures r.result.Err? ==> r.app.data == a.data && r.app.view == a.view
    ensures r.result.Ok? ==> Shown(r.app) && r.app.view == a.view
    ensures r.result.Ok? && a.view != "journal" ==> InSync(r.app)
    ensures (form.id.Some? && a.db.Some? && a.db.value.tasks.Some?
             && form.id.value !in a.db.value.tasks.value.records) ==> r == Step(a, Err(TypeError))
    ensures r.result.Ok? ==>
              (a.db.Some? && a.db.value.tasks.Some? && Db.SameExcept(a.db.value, r.app.db.value, {"tasks"}))
    ensures r.result.Ok? && form.id.None? ==>
              var before := a.db.value.tasks.value;
              && r.app.db.value.tasks.value.records == before.records[r.result.value := FormTask(form, None)]
              && (ObjectStores.Valid(before) ==> r.result.value !in before.records)
    ensures r.result.Ok? && form.id.Some? ==>
              var before := a.db.value.tasks.value;
              && r.result.value == form.id.value && form.id.value in before.records
              && r.app.db.value.tasks.value.records == before.records[form.id.value :=
                   FormTask(form, CarriedJournalId(before.records[form.id.value]))]
    ensures a.db.Some? && Db.Valid(a.db.value) && r.app.db.Some? ==> Db.Valid(r.app.db.value)
  {
    match CarriedForForm(a, form.id)
    case Err(e) => Step(a, Err(e))
    case Ok(carried) => Revisit(WriteTask(a, form.id, FormTask(form, carried), false), a.view)
  }

  /** The birthday field: `value || undefined`. */
  function Birthday(field: string): (r: Option<string>)
    ensures r.None? <==> field == ""
    ensures r.Some? ==> r.value == field
  {
    if field == "" then None else Some(field)
  }

  /**
   * The member form's writes, shared by js/main.js's add-member-form and the
   * settings modal's own listener: a blank trimmed name does nothing;
   * otherwise one member with the trimmed name is added, then the data is
   * reloaded.
   */
  function AddMember(a: App, name: string, birthday: string): (r: Step<Option<Key>>)
    ensures AllSpace(name) ==> r == Step(a, Ok(None))
    ensures r.result.Err? ==> r.app.data == a.data && r.app.view == a.view
    ensures r.result.Ok? && !AllSpace(name) ==>
              && InSync(r.app) && r.app.view == a.view
              && a.db.Some? && a.db.value.familyMembers.Some?
              && Db.SameExcept(a.db.value, r.app.db.value, {"familyMembers"})
              && r.result.value.Some?
              && var k := r.result.value.value;
                 var before := a.db.value.familyMembers.value;
                 && r.app.db.value.familyMembers.value.records
                      == before.records[k := FamilyMember(Trim(name), Birthday(birthday))]
                 && (ObjectStores.Valid(before) ==> k !in before.records)
    ensures a.db.Some? && Db.Valid(a.db.value) && r.app.db.Some? ==> Db.Valid(r.app.db.value)
  {
    var trimmed := Trim(name);
    if trimmed == [] then Step(a, Ok(None))
    else
      match Db.Add(Db.Locate(a.db, Db.FamilyMembersOf), None, FamilyMember(trimmed, Birthday(birthday)))
      case Err(e) => Step(a, Err(e))
      case Ok((s, k)) => Reload(a.(db := Some(a.db.value.(familyMembers := Some(s)))), Some(k))
  }

  /**
   * add-member-form: the writes above, then `UI.renderSettingsModal(appData)`.
   * That renderer ignores its argument and reads `window.appData`, which
   * js/main.js never assigns (its cache is the module's own `appData`), so a
   * member that was added and reloaded is followed by a TypeError.
   */
  function AddFamilyMember(a: App, name: string, birthday: string): (r: Step<Option<Key>>)
    ensures AllSpace(name) ==> r == Step(a, Ok(None))
    ensures !AllSpace(name) ==> r.result.Err?
    ensures r.app == AddMember(a, name, birthday).app
    ensures !AllSpace(name) && AddMember(a, name, birthday).result.Ok? ==> r.result == Err(TypeError)
    ensures AddMember(a, name, birthday).result.Err? ==> r.result == AddMember(a, name, birthday).result
  {
    var added := AddMember(a, name, birthday);
    if Trim(name) == [] || added.result.Err? then added
    else Step(added.app, Err(TypeError))
  }

  /** The first cached store whose name equals `name` ignoring case. */
  function FindStore(stores: seq<ObjectStores.Keyed<Store>>, name: string): (r: Option<nat>)
    ensures r.None? <==> forall i :: 0 <= i < |stores| ==> !SameIgnoringCase(stores[i].value.name, name)
    ensures r.Some? ==> r.value < |stores| && SameIgnoringCase(stores[r.value].value.name, name)
    ensures r.Some? ==> forall i :: 0 <= i < r.value ==> !SameIgnoringCase(stores[i].value.name, name)
  {
    if stores == [] then None
    else if SameIgnoringCase(stores[0].value.name, name) then Some(0)
    else
      match FindStore(stores[1..], name)
      case None => None
      case Some(i) => Some(i + 1)
  }

  /**
   * add-list-form: find-or-create a store.  A blank trimmed name does nothing.
   * A cached store whose name matches ignoring case is reused and nothing is
   * written; otherwise one store with the trimmed name is added.  Either way
   * the data is reloaded and the list-detail view opens on the resulting id,
   * which the step resolves to.
   */
  function AddList(a: App, input: string): (r: Step<Option<Key>>)
    ensures AllSpace(input) ==> r == Step(a, Ok(None))
    ensures !AllSpace(input) && a.data.None? ==> r == Step(a, Err(TypeError))
    ensures r.result.Err? ==> r.app.data == a.data && r.app.view == a.view
    ensures r.result.Ok? && !AllSpace(input) ==> InSync(r.app) && r.app.view == "list-detail"
    ensures !AllSpace(input) && a.data.Some? && FindStore(a.data.value.stores, Trim(input)).Some? ==>
              var i := FindStore(a.data.value.stores, Trim(input)).value;
              && r.app.db == a.db
              && (r.result.Ok? ==> r.result.value == Some(a.data.value.stores[i].id))
    ensures r.result.Ok? && !AllSpace(input) && FindStore(a.data.value.stores, Trim(input)).None? ==>
              && a.db.Some? && a.db.value.stores.Some?
              && Db.SameExcept(a.db.value, r.app.db.value, {"stores"})
              && var before := a.db.value.stores.value;
                 ObjectStores.Valid(before) ==>
                   && r.result.value.Some?
                   && r.result.value.value !in before.records
                   && r.app.db.value.stores.value.records == before.records[r.result.value.value := Store(Trim(input))]
    ensures a.db.Some? && Db.Valid(a.db.value) && r.app.db.Some? ==> Db.Valid(r.app.db.value)
  {
    var storeName := Trim(input);
    if storeName == [] then Step(a, Ok(None))
    else if a.data.None? then Step(a, Err(TypeError))
    else
      match FindStore(a.data.value.stores, storeName)
      case Some(i) =>
        Revisit(Reload(a, Some(a.data.value.stores[i].id)), "list-detail")
      case None =>
        match Db.Add(Db.Locate(a.db, Db.StoresOf), None, Store(storeName))
        case Err(e) => Step(a, Err(e))
        case Ok((s, k)) =>
          Revisit(Reload(a.(db := Some(a.db.value.(stores := Some(s)))), Db.Ack(k)), "list-detail")
  }

  /**
   * add-item-form: a blank trimmed name or a NaN store id writes nothing;
   * otherwise one item `{storeId, name, completed: false}` is added.
   */
  function AddItem(a: App, input: string, storeId: Option<int>): (r: Step<Option<Key>>)
    ensures AllSpace(input) || storeId.None? ==> r == Step(a, Ok(None))
    ensures r.result.Err? ==> r.app.data == a.data && r.app.view == a.view
    ensures r.result.Ok? && !AllSpace(input) && storeId.Some? ==>
              && InSync(r.app) && r.app.view == a.view
              && a.db.Some? && a.db.value.shoppingLists.Some?
              && Db.SameExcept(a.db.value, r.app.db.value, {"shoppingLists"})
              && r.result.value.Some?
              && var k := r.result.value.value;
                 var before := a.db.value.shoppingLists.value;
                 && r.app.db.value.shoppingLists.value.records
                      == before.records[k := ShoppingItem(storeId.value, Trim(input), false)]
                 && (ObjectStores.Valid(before) ==> k !in before.records)
    ensures a.db.Some? && Db.Valid(a.db.value) && r.app.db.Some? ==> Db.Valid(r.app.db.value)
  {
    var name := Trim(input);
    if name == [] || storeId.None? then Step(a, Ok(None))
    else
      match Db.Add(Db.Locate(a.db, Db.ShoppingListsOf), None, ShoppingItem(storeId.value, name, false))
      case Err(e) => Step(a, Err(e))
      case Ok((s, k)) => Reload(a.(db := Some(a.db.value.(shoppingLists := Some(s)))), Some(k))
  }

  /**
   * Links a saved journal entry back to a task: when `taskId` is truthy and
   * that task exists, only its `journalEntryId` changes; otherwise no task
   * changes.
   */
  function LinkTask(a: App, taskId: Option<int>, journalId: Option<Key>): (r: Step<()>)
    ensures !Truthy(taskId) ==> r == Step(a, Ok(()))
    ensures r.result.Err? ==> r.app == a
    ensures r.app.data == a.data && r.app.view == a.view
    ensures (Truthy(taskId) && a.db.Some? && a.db.value.tasks.Some?
             && taskId.value !in a.db.value.tasks.value.records) ==> r == Step(a, Ok(()))
    ensures (Truthy(taskId) && a.db.Some? && a.db.value.tasks.Some?
             && taskId.value in a.db.value.tasks.value.records) ==>
              var before := a.db.value.tasks.value.records;
              && r.result.Ok? && r.app.db.Some? && r.app.db.value.tasks.Some?
              && Db.SameExcept(a.db.value, r.app.db.value, {"tasks"})
              && r.app.db.value.tasks.value.records
                   == before[taskId.value := before[taskId.value].(journalEntryId := journalId)]
    ensures a.db.Some? && Db.Valid(a.db.value) && r.app.db.Some? ==> Db.Valid(r.app.db.value)
  {
    if !Truthy(taskId) then Step(a, Ok(()))
    else
      var tasks := Db.Locate(a.db, Db.TasksOf);
      match Db.Get(tasks, taskId.value)
      case Err(e) => Step(a, Err(e))
      case Ok(None) => Step(a, Ok(()))
      case Ok(Some(t)) =>
        match Db.Put(tasks, Some(t.id), t.value.(journalEntryId := journalId))
        case Err(e) => Step(a, Err(e))
        case Ok((s, _)) => Step(a.(db := Some(a.db.value.(tasks := Some(s)))), Ok(()))
  }

  /**
   * Saves a journal entry dated `today` under `entryId` (a fresh key when
   * absent), links it to the task `taskId`, and reloads.  Resolves to the key
   * the entry was saved under.
   */
  function SaveJournalEntry(a: App, entryId: Option<Key>, taskId: Option<int>, title: string, content: string, today: string)
    : (r: Step<Key>)
    ensures r.result.Err? ==> r.app.data == a.data && r.app.view == a.view
    ensures r.result.Ok? ==> InSync(r.app) && r.app.view == a.view
    ensures r.result.Ok? ==>
              && a.db.Some? && a.db.value.journalEntries.Some? && a.db.value.tasks.Some?
              && Db.SameExcept(a.db.value, r.app.db.value, {"journalEntries", "tasks"})
              && var k := r.result.value;
                 var before := a.db.value.journalEntries.value;
                 && r.app.db.value.journalEntries.value.records == before.records[k := JournalEntry(today, title, content)]
                 && (entryId.Some? ==> k == entryId.value)
                 && (entryId.None? && ObjectStores.Valid(before) ==> k !in before.records && k >= 1)
                 && var tasks := a.db.value.tasks.value.records;
                    if Truthy(taskId) && taskId.value in tasks then
                      r.app.db.value.tasks.value.records
                        == tasks[taskId.value := tasks[taskId.value].(journalEntryId := Db.Ack(k))]
                    else r.app.db.value.tasks == a.db.value.tasks
    ensures a.db.Some? && Db.Valid(a.db.value) && r.app.db.Some? ==> Db.Valid(r.app.db.value)
  {
    match Db.Put(Db.Locate(a.db, Db.JournalEntriesOf), entryId, JournalEntry(today, title, content))
    case Err(e) => Step(a, Err(e))
    case Ok((s, k)) =>
      var saved := a.(db := Some(a.db.value.(journalEntries := Some(s))));
      var linked := LinkTask(saved, taskId, Db.Ack(k));
      if linked.result.Err? then Step(linked.app, Err(linked.result.error))
      else Reload(linked.app, k)
  }

  /**
   * journal-form: the entry id is `parseInt(journalId) || undefined`, the date
   * is today, and a truthy `taskId` whose task exists gets the saved id.  After
   * the reload the journal view, when current, is rendered again.
   */
  function SubmitJournalForm(a: App, journalId: Option<int>, taskId: Option<int>, title: string, content: string, today: string)
    : (r: Step<Key>)
    ensures var saved := SaveJournalEntry(a, OrUndefined(journalId), taskId, title, content, today);
            && r.result == saved.result && r.app.db == saved.app.db && r.app.view == a.view
            && (r.result.Err? ==> r.app == saved.app)
    ensures r.result.Ok? ==> Shown(r.app)
    ensures r.result.Ok? && a.view != "journal" ==> InSync(r.app)
    ensures r.result.Ok? && Truthy(journalId) ==> r.result.value == journalId.value
    ensures r.result.Ok? && a.db.Some? && Db.Valid(a.db.value) ==> Db.Ack(r.result.value) == Some(r.result.value)
  {
    var saved := SaveJournalEntry(a, OrUndefined(journalId), taskId, title, content, today);
    if saved.result.Err? then saved
    else
      RerenderShown(saved.app);
      Step(Rerender(saved.app), saved.result)
  }
}

=== FILE: keygen.dfy ===
/**
 * Key generators of the W3C Indexed Database API (section 2.11, "Key generators"):
 * every object store created with `autoIncrement: true` owns a counter, the
 * current number, which starts at 1 and hands out the next key for records that
 * arrive without one.
 */
module KeyGenerators {
  import opened Wrappers

  /** Keys are JavaScript numbers; the application only ever uses integral ones. */
  type Key = int

  /** 2^53: no key generator hands out a key above it. */
  const MaxGeneratedKey: int := 0x20_0000_0000_0000

  datatype Generator = Generator(current: int)

  /** The generator of a freshly created object store. */
  const Initial: Generator := Generator(1)

  /** The current number is a positive integer no greater than 2^53 + 1. */
  predicate Valid(g: Generator) {
    1 <= g.current <= MaxGeneratedKey + 1
  }

  /** A generator whose next key would exceed 2^53 can no longer generate. */
  predicate Exhausted(g: Generator) {
    g.current > MaxGeneratedKey
  }

  /** Every key in `keys` lies below the current number, unless the generator is used up. */
  predicate Covers(g: Generator, keys: set<Key>) {
    forall k :: k in keys ==> k < g.current || Exhausted(g)
  }

  /**
   * "Generate a key": fails once the current number exceeds 2^53; otherwise the
   * key is the current number and the counter moves on by one.
   */
  function Generate(g: Generator): (r: Option<(Key, Generator)>)
    ensures r.None? <==> Exhausted(g)
    ensures r.Some? ==> r.value.0 == g.current && r.value.1.current == g.current + 1
    ensures r.Some? && Valid(g) ==> Valid(r.value.1) && r.value.0 >= 1
    ensures forall keys :: r.Some? && Covers(g, keys) ==>
              r.value.0 !in keys && Covers(r.value.1, keys + {r.value.0})
  {
    if g.current > MaxGeneratedKey then None
    else Some((g.current, Generator(g.current + 1)))
  }

  /**
   * "Possibly update the key generator" after a record is stored under an
   * explicit key: a key at or above the current number (capped at 2^53) pushes
   * the current number past it.
   */
  function PossiblyUpdate(g: Generator, k: Key): (r: Generator)
    ensures r.current >= g.current
    ensures k < g.current ==> r == g
    ensures g.current <= k <= MaxGeneratedKey ==> r.current == k + 1
    ensures k <= MaxGeneratedKey ==> k < r.current
    ensures k > MaxGeneratedKey && g.current <= MaxGeneratedKey ==> r.current == MaxGeneratedKey + 1
    ensures k > MaxGeneratedKey && Valid(g) ==> Exhausted(r)
    ensures Valid(g) ==> Valid(r)
    ensures forall keys :: Valid(g) && Covers(g, keys) ==> Covers(r, keys + {k})
  {
    var value := if k < MaxGeneratedKey then k else MaxGeneratedKey;
    if value >= g.current then Generator(value + 1) else g
  }
}

=== FILE: modals.dfy ===
/**
 * The save handlers js/ui.js attaches to the forms it renders: the list-detail
 * add-item form, the task modal, the settings modal's member form and the
 * journal-entry modal.  Opening a modal reads what the later save needs.
 */
module Modals {
  import opened Wrappers
  import opened Errors
  import opened KeyGenerators
  import opened Records
  import opened Strings
  import ObjectStores
  import Db = Database
  import opened AppState
  import opened Handlers
  import Views

  /**
   * The list-detail form's listener: a blank trimmed name does nothing;
   * otherwise one item `{storeId, name, completed: false}` is added to that
   * store and the data is reloaded.
   */
  function ListDetailAddItem(a: App, storeId: Key, input: string): (r: Step<Option<Key>>)
    ensures AllSpace(input) ==> r == Step(a, Ok(None))
    ensures r.result.Err? ==> r.app.data == a.data && r.app.view == a.view
    ensures r.result.Ok? && !AllSpace(input) ==>
              && InSync(r.app) && r.app.view == a.view && r.result.value.Some?
              && a.db.Some? && a.db.value.shoppingLists.Some?
              && Db.SameExcept(a.db.value, r.app.db.value, {"shoppingLists"})
              && r.app.db.value.shoppingLists.value.records
                   == a.db.value.shoppingLists.value.records[r.result.value.value := ShoppingItem(storeId, Trim(input), false)]
    ensures a.db.Some? && Db.Valid(a.db.value) && r.app.db.Some? ==> Db.Valid(r.app.db.value)
  {
    AddItem(a, input, Some(storeId))
  }

  /**
   * After an item is added from a store's page, the re-rendered page of that
   * store lists it, under the key it was stored with and with its trimmed
   * name.
   */
  lemma {:induction false} AddedItemIsListed(a: App, storeId: Key, input: string)
    requires !AllSpace(input)
    ensures var r := ListDetailAddItem(a, storeId, input);
            r.result.Ok? ==>
              ObjectStores.Keyed(r.result.value.value, ShoppingItem(storeId, Trim(input), false))
                in Views.RenderListDetail(storeId, r.app.data.value).items
  {
    var r := ListDetailAddItem(a, storeId, input);
    if r.result.Ok? {
      var item := ObjectStores.Keyed(r.result.value.value, ShoppingItem(storeId, Trim(input), false));
      var data := r.app.data.value;
      var store := r.app.db.value.shoppingLists.value;
      assert ObjectStores.Holds(data.shoppingLists, store);
      assert item.id in store.records && store.records[item.id] == item.value;
      assert item in data.shoppingLists;
      Views.ListedOnItsPage(storeId, data, item);
    }
  }

  /**
   * The settings modal's member form (its writes are `Handlers.AddMember`;
   * its re-render reads the `window.appData` that `main.js` keeps): the name
   * it stores has no surrounding white space left to trim.
   */
  lemma {:induction false} AddedMemberNameIsTrimmed(a: App, name: string, birthday: string)
    ensures var r := AddMember(a, name, birthday);
            r.result.Ok? && r.result.value.Some? ==>
              var stored := r.app.db.value.familyMembers.value.records[r.result.value.value];
              Trim(stored.name) == stored.name && !AllSpace(stored.name)
  {
    TrimIdempotent(name);
  }

  /** What the open task modal holds for its save: the `taskId` it was opened with and the loaded task's `journalEntryId`. */
  datatype TaskModal = TaskModal(taskId: Option<int>, journalEntryId: Option<Key>)

  /** The editable fields of the task modal's form. */
  datatype TaskFields = TaskFields(name: string, kind: string, assignee: string, date: string, time: string)

  /**
   * `renderTaskModal`: a truthy `taskId` loads that task (a rejection rejects
   * the render, a missing task reads as undefined); otherwise the task is `{}`.
   */
  function OpenTaskModal(a: App, taskId: Option<int>): (r: Result<TaskModal, Error>)
    ensures r.Ok? ==> r.value.taskId == taskId
    ensures !Truthy(taskId) ==> r == Ok(TaskModal(taskId, None))
    ensures Truthy(taskId) && a.db.Some? && a.db.value.tasks.Some? ==>
              && r.Ok?
              && var records := a.db.value.tasks.value.records;
                 r.value.journalEntryId
                   == if taskId.value in records then records[taskId.value].journalEntryId else None
    ensures Truthy(taskId) && (a.db.None? || a.db.value.tasks.None?) ==> r.Err?
  {
    if !Truthy(taskId) then Ok(TaskModal(taskId, None))
    else
      match Db.Get(Db.Locate(a.db, Db.TasksOf), taskId.value)
      case Err(e) => Err(e)
      case Ok(None) => Ok(TaskModal(taskId, None))
      case Ok(Some(t)) => Ok(TaskModal(taskId, t.value.journalEntryId))
  }

  /** The task the modal's form saves, carrying `task?.journalEntryId` unchanged. */
  function ModalTask(fields: TaskFields, journalEntryId: Option<Key>): Task {
    Task(fields.name, fields.kind, fields.assignee, fields.date, fields.time, journalEntryId)
  }

  /**
   * The task modal's save: the id is `parseInt(taskId || '') || undefined`;
   * with an id the task is `put` under it (whether or not a task is stored
   * there), without one it is `add`ed under a fresh key; then the data is
   * reloaded and `switchView(window.currentView)` renders the view again.
   */
  function SaveTaskModal(a: App, modal: TaskModal, fields: TaskFields): (r: Step<Key>)
    ensures r.result.Err? ==> r.app.data == a.data && r.app.view == a.view
    ensures r.result.Ok? && a.view != "journal" ==> InSync(r.app)
    ensures r.result.Ok? ==>
              && Shown(r.app) && r.app.view == a.view
              && a.db.Some? && a.db.value.tasks.Some?
              && Db.SameExcept(a.db.value, r.app.db.value, {"tasks"})
              && r.app.db.value.tasks.value.records
                   == a.db.value.tasks.value.records[r.result.value := ModalTask(fields, modal.journalEntryId)]
    ensures r.result.Ok? && Truthy(modal.taskId) ==> r.result.value == modal.taskId.value
    ensures r.result.Ok? && !Truthy(modal.taskId) && ObjectStores.Valid(a.db.value.tasks.value) ==>
              r.result.value !in a.db.value.tasks.value.records && r.result.value >= 1
    ensures (Truthy(modal.taskId) && a.db.Some? && Db.AllPresent(a.db.value)) ==> r.result.Ok?
    ensures a.db.Some? && Db.Valid(a.db.value) && r.app.db.Some? ==> Db.Valid(r.app.db.value)
  {
    var id := OrUndefined(modal.taskId);
    var t := ModalTask(fields, modal.journalEntryId);
    Revisit(if id.Some? then WriteTask(a, id, t, false) else WriteTask(a, None, t, true), a.view)
  }

  /**
   * Editing a stored task through its modal keeps the task's journal link:
   * the task saved under the id carries the `journalEntryId` it had.
   */
  lemma {:induction false} TaskModalKeepsJournalLink(a: App, taskId: int, fields: TaskFields)
    requires taskId != 0 && a.db.Some? && a.db.value.tasks.Some? && taskId in a.db.value.tasks.value.records
    ensures OpenTaskModal(a, Some(taskId)).Ok?
    ensures var r := SaveTaskModal(a, OpenTaskModal(a, Some(taskId)).value, fields);
            r.result.Ok? ==>
              && r.result.value == taskId
              && r.app.db.value.tasks.value.records[taskId].journalEntryId
                   == a.db.value.tasks.value.records[taskId].journalEntryId
  {
    var m := OpenTaskModal(a, Some(taskId));
    assert Truthy(Some(taskId));
    assert m.value.journalEntryId == a.db.value.tasks.value.records[taskId].journalEntryId;
  }

  /**
   * The two task saves agree on an existing task whose journal link is
   * truthy: js/main.js's task-form and the modal's own handler store the
   * same task under the same id.  (They differ when the link is 0, which
   * js/main.js turns into `null`, and on an id with no stored task, where
   * js/main.js fails and the modal writes a new task.)
   */
  lemma {:induction false} TaskSavesAgree(a: App, taskId: int, fields: TaskFields)
    requires taskId != 0 && a.db.Some? && a.db.value.tasks.Some? && taskId in a.db.value.tasks.value.records
    requires Truthy(a.db.value.tasks.value.records[taskId].journalEntryId)
    ensures OpenTaskModal(a, Some(taskId)).Ok?
    ensures SaveTaskModal(a, OpenTaskModal(a, Some(taskId)).value, fields)
            == SubmitTaskForm(a, TaskForm(Some(taskId), fields.name, fields.kind, fields.assignee, fields.date, fields.time))
  {
    var m := OpenTaskModal(a, Some(taskId));
    assert Truthy(Some(taskId));
    var form := TaskForm(Some(taskId), fields.name, fields.kind, fields.assignee, fields.date, fields.time);
    var stored := a.db.value.tasks.value.records[taskId];
    assert CarriedForForm(a, form.id) == Ok(stored.journalEntryId);
    assert FormTask(form, stored.journalEntryId) == ModalTask(fields, m.value.journalEntryId);
  }

  /** What the open journal modal holds for its save: the task to link and the entry id to save under. */
  datatype JournalModal = JournalModal(taskId: Option<int>, entryId: Param)

  /**
   * `renderJournalEntryModal`: the entry id is `journalId || id`; a truthy
   * one loads that entry first, whose rejection rejects the render.
   */
  function OpenJournalModal(a: App, taskId: Option<int>, journalId: Param, id: Param): (r: Result<JournalModal, Error>)
    ensures r.Ok? ==> r.value == JournalModal(taskId, ParamOr(journalId, id))
    ensures r.Err? <==> ParamTruthy(ParamOr(journalId, id)) && (a.db.None? || a.db.value.journalEntries.None?)
  {
    var effective := ParamOr(journalId, id);
    if !ParamTruthy(effective) then Ok(JournalModal(taskId, effective))
    else
      match Db.Get(Db.Locate(a.db, Db.JournalEntriesOf), effective.n)
      case Err(e) => Err(e)
      case Ok(_) => Ok(JournalModal(taskId, effective))
  }

  /**
   * The writes of the journal modal's save: `put` the entry dated today
   * under the modal's entry id (a fresh key when it is undefined), link a
   * truthy `taskId`'s task to it when that task exists, leaving every task
   * alone otherwise, then reload.  An entry id that is NaN is no
   * valid key: the `put` rejects and nothing is written.
   */
  function WriteJournalModal(a: App, modal: JournalModal, title: string, content: string, today: string): (r: Step<Key>)
    ensures modal.entryId.NaN? ==> r.app == a && r.result.Err?
    ensures modal.entryId.NaN? && a.db.Some? && a.db.value.journalEntries.Some? ==> r.result == Err(DataError)
    ensures r.result.Err? ==> r.app.data == a.data && r.app.view == a.view
    ensures r.result.Ok? ==>
              && InSync(r.app) && r.app.view == a.view
              && a.db.Some? && a.db.value.journalEntries.Some? && a.db.value.tasks.Some?
              && Db.SameExcept(a.db.value, r.app.db.value, {"journalEntries", "tasks"})
              && r.app.db.value.journalEntries.value.records
                   == a.db.value.journalEntries.value.records[r.result.value := JournalEntry(today, title, content)]
    ensures r.result.Ok? ==>
              var tasks := a.db.value.tasks.value.records;
              if Truthy(modal.taskId) && modal.taskId.value in tasks then
                r.app.db.value.tasks.value.records
                  == tasks[modal.taskId.value := tasks[modal.taskId.value].(journalEntryId := Db.Ack(r.result.value))]
              else r.app.db.value.tasks == a.db.value.tasks
    ensures r.result.Ok? && modal.entryId.Number? ==> r.result.value == modal.entryId.n
    ensures r.result.Ok? && modal.entryId.Undefined? && ObjectStores.Valid(a.db.value.journalEntries.value) ==>
              r.result.value !in a.db.value.journalEntries.value.records
    ensures a.db.Some? && Db.Valid(a.db.value) && r.app.db.Some? ==> Db.Valid(r.app.db.value)
  {
    match modal.entryId
    case NaN => Step(a, Err(Db.RejectInvalidKey(Db.Locate(a.db, Db.JournalEntriesOf))))
    case Undefined => SaveJournalEntry(a, None, modal.taskId, title, content, today)
    case Number(n) => SaveJournalEntry(a, Some(n), modal.taskId, title, content, today)
  }

  /**
   * The journal modal's save: the writes above, then, in the journal view,
   * `renderJournal()` without its argument, which fails with a TypeError
   * after everything has been written and reloaded.
   */
  function SaveJournalModal(a: App, modal: JournalModal, title: string, content: string, today: string): (r: Step<Key>)
    ensures r.app == WriteJournalModal(a, modal, title, content, today).app
    ensures r.result.Ok? <==> WriteJournalModal(a, modal, title, content, today).result.Ok? && a.view != "journal"
    ensures a.view == "journal" && WriteJournalModal(a, modal, title, content, today).result.Ok? ==>
              r.result == Err(TypeError)
    ensures r.result.Ok? ==> InSync(r.app)
  {
    var written := WriteJournalModal(a, modal, title, content, today);
    if written.result.Ok? && a.view == "journal" then Step(written.app, Err(TypeError)) else written
  }

  /**
   * Saving from a journal modal opened on an existing task links that task to
   * the saved entry: its `journalEntryId` becomes the entry's key, and no
   * other field of it changes.  An entry id of 0 is excluded: the entry is
   * stored under 0, which the write resolves as undefined.
   */
  lemma {:induction false} JournalModalLinksTask(a: App, taskId: int, journalId: Param, id: Param,
                                                 title: string, content: string, today: string)
    requires taskId != 0 && a.db.Some? && Db.Valid(a.db.value) && a.db.value.tasks.Some?
    requires taskId in a.db.value.tasks.value.records
    requires OpenJournalModal(a, Some(taskId), journalId, id).Ok?
    requires ParamOr(journalId, id) != Number(0)
    ensures var r := WriteJournalModal(a, OpenJournalModal(a, Some(taskId), journalId, id).value, title, content, today);
            r.result.Ok? ==>
              r.app.db.value.tasks.value.records[taskId]
                == a.db.value.tasks.value.records[taskId].(journalEntryId := Some(r.result.value))
  {
    var m := OpenJournalModal(a, Some(taskId), journalId, id).value;
    var r := WriteJournalModal(a, m, title, content, today);
    assert Truthy(Some(taskId));
    if r.result.Ok? {
      var k := r.result.value;
      if m.entryId.Undefined? {
        assert k >= 1;
      } else if m.entryId.NaN? {
        assert false;
      } else {
        assert k == m.entryId.n && k != 0;
      }
      assert Db.Ack(k) == Some(k);
    }
  }
}

=== FILE: objectstore.dfy ===
/**
 * One object store created with `{ keyPath: 'id', autoIncrement: true }`:
 * a map from key to record plus the store's key generator.  Records are kept
 * without their `id`; the key they are stored under is injected back as the
 * `id` when they are read, so a read record's id is always its key.
 */
module ObjectStores {
  import opened Wrappers
  import opened Errors
  import opened KeyGenerators

  /** A record as `get`/`getAll` yield it: the stored value with its key as `id`. */
  datatype Keyed<V> = Keyed(id: Key, value: V)

  datatype ObjectStore<V> = ObjectStore(records: map<Key, V>, generator: Generator)

  /** A store as `createObjectStore` leaves it. */
  function Empty<V>(): (s: ObjectStore<V>)
    ensures s.records == map[] && s.generator == Initial
    ensures Valid(s)
  {
    ObjectStore(map[], Initial)
  }

  /** The generator is valid and every stored key lies below its current number. */
  predicate Valid<V>(s: ObjectStore<V>) {
    KeyGenerators.Valid(s.generator) && Covers(s.generator, s.records.Keys)
  }

  /**
   * "Store a record into an object store": without an id the generator supplies
   * the key; with an explicit id the generator is possibly updated.  Under `add`
   * (`noOverwrite`) an existing key is a ConstraintError; under `put` the record
   * at that key is replaced.  Resolves to the effective key.
   */
  function Write<V>(s: ObjectStore<V>, id: Option<Key>, v: V, noOverwrite: bool)
    : (r: Result<(ObjectStore<V>, Key), Error>)
    ensures r.Err? ==> r.error == ConstraintError
    ensures id.Some? ==> (r.Err? <==> noOverwrite && id.value in s.records)
    ensures id.None? ==> (r.Err? <==> Exhausted(s.generator))
    ensures r.Ok? ==> r.value.0.records == s.records[r.value.1 := v]
    ensures r.Ok? && id.Some? ==> r.value.1 == id.value
    ensures r.Ok? && id.None? ==> r.value.1 == s.generator.current
    ensures r.Ok? && id.Some? ==> r.value.0.generator == PossiblyUpdate(s.generator, id.value)
    ensures r.Ok? && id.None? && Valid(s) ==> r.value.1 !in s.records && r.value.1 >= 1
    ensures r.Ok? && Valid(s) ==> Valid(r.value.0)
  {
    match id
    case None =>
      (match Generate(s.generator)
       case None => Err(ConstraintError)
       case Some((k, g)) => Ok((ObjectStore(s.records[k := v], g), k)))
    case Some(k) =>
      if noOverwrite && k in s.records then Err(ConstraintError)
      else Ok((ObjectStore(s.records[k := v], PossiblyUpdate(s.generator, k)), k))
  }

  /** `get`: the record under `k`, or undefined when there is none. */
  function Get<V>(s: ObjectStore<V>, k: Key): (r: Option<Keyed<V>>)
    ensures r.Some? <==> k in s.records
    ensures r.Some? ==> r.value.id == k && r.value.value == s.records[k]
  {
    if k in s.records then Some(Keyed(k, s.records[k])) else None
  }

  /** The list holds every record of the store exactly once, each under its own key, in some order. */
  predicate Holds<V(==)>(xs: seq<Keyed<V>>, s: ObjectStore<V>) {
    && |xs| == |s.records|
    && (forall i :: 0 <= i < |xs| ==> xs[i].id in s.records && s.records[xs[i].id] == xs[i].value)
    && (forall k :: k in s.records ==> Keyed(k, s.records[k]) in xs)
  }

  /** The list holds every record of the store exactly once, in ascending key order, as `getAll` yields them. */
  predicate Mirrors<V(==)>(xs: seq<Keyed<V>>, s: ObjectStore<V>) {
    && Holds(xs, s)
    && (forall i, j :: 0 <= i < j < |xs| ==> xs[i].id < xs[j].id)
  }

  /** Reordering a list that holds a store's records still holds them. */
  lemma {:induction false} HoldsReordered<V>(xs: seq<Keyed<V>>, ys: seq<Keyed<V>>, s: ObjectStore<V>)
    requires Holds(xs, s) && multiset(xs) == multiset(ys)
    ensures Holds(ys, s)
  {
    assert |ys| == |multiset(ys)| == |multiset(xs)| == |xs|;
    forall i | 0 <= i < |ys| ensures ys[i].id in s.records && s.records[ys[i].id] == ys[i].value {
      assert ys[i] in multiset(ys);
      assert ys[i] in xs;
      var j :| 0 <= j < |xs| && xs[j] == ys[i];
    }
    forall k | k in s.records ensures Keyed(k, s.records[k]) in ys {
      assert Keyed(k, s.records[k]) in multiset(xs);
    }
  }

  /**
   * Overwriting the record at one position of a mirror, and the same record in
   * the store, leaves a mirror.
   */
  lemma {:induction false} MirrorsUpdate<V>(xs: seq<Keyed<V>>, s: ObjectStore<V>, i: nat, v: V)
    requires Mirrors(xs, s) && i < |xs|
    ensures Mirrors(xs[i := Keyed(xs[i].id, v)], s.(records := s.records[xs[i].id := v]))
  {
    var id := xs[i].id;
    var ys := xs[i := Keyed(id, v)];
    var after := s.records[id := v];
    assert after.Keys == s.records.Keys;
    forall j | 0 <= j < |ys| ensures ys[j].id in after && after[ys[j].id] == ys[j].value {
      if j < i { assert xs[j].id < id; } else if j > i { assert id < xs[j].id; }
    }
    forall k | k in after ensures Keyed(k, after[k]) in ys {
      UpdatedRecordListed(xs, s, i, v, k);
    }
  }

  /** After that overwrite, each record of the store is still in the list. */
  lemma {:induction false} UpdatedRecordListed<V>(xs: seq<Keyed<V>>, s: ObjectStore<V>, i: nat, v: V, k: Key)
    requires Holds(xs, s) && i < |xs| && k in s.records
    ensures Keyed(k, s.records[xs[i].id := v][k]) in xs[i := Keyed(xs[i].id, v)]
  {
    var ys := xs[i := Keyed(xs[i].id, v)];
    if k == xs[i].id {
      assert ys[i] == Keyed(k, v);
    } else {
      var x := Keyed(k, s.records[k]);
      var j :| 0 <= j < |xs| && xs[j] == x;
      assert ys[j] == x;
    }
  }

  /** `getAll`: every record of the store, in ascending key order. */
  function GetAll<V(==)>(s: ObjectStore<V>): (r: seq<Keyed<V>>)
    ensures Mirrors(r, s)
  {
    var keys := SortedKeys(s.records.Keys);
    var r := seq(|keys|, i requires 0 <= i < |keys| => Keyed(keys[i], s.records[keys[i]]));
    ListedInKeyOrder(keys, s, r);
    r
  }

  /** Pairing every key of a store, in ascending order, with its record gives a mirror of the store. */
  lemma {:induction false} ListedInKeyOrder<V>(keys: seq<Key>, s: ObjectStore<V>, r: seq<Keyed<V>>)
    requires |keys| == |s.records.Keys|
    requires forall k :: k in s.records <==> k in keys
    requires forall i, j :: 0 <= i < j < |keys| ==> keys[i] < keys[j]
    requires |r| == |keys| && forall i :: 0 <= i < |r| ==> r[i] == Keyed(keys[i], s.records[keys[i]])
    ensures Mirrors(r, s)
  {
    forall k | k in s.records ensures Keyed(k, s.records[k]) in r {
      var i :| 0 <= i < |keys| && keys[i] == k;
      assert r[i] == Keyed(k, s.records[k]);
    }
  }

  /** The keys of a set in strictly ascending order. */
  function SortedKeys(ks: set<Key>): (r: seq<Key>)
    ensures |r| == |ks|
    ensures forall k :: k in ks <==> k in r
    ensures forall i, j :: 0 <= i < j < |r| ==> r[i] < r[j]
    decreases |ks|
  {
    if ks == {} then []
    else
      var m := Least(ks);
      var rest := SortedKeys(ks - {m});
      assert forall i :: 0 <= i < |rest| ==> m < rest[i] by {
        forall i | 0 <= i < |rest| ensures m < rest[i] {
          assert rest[i] in ks - {m};
        }
      }
      [m] + rest
  }

  /** The smallest key of a non-empty set. */
  function Least(ks: set<Key>): (m: Key)
    requires ks != {}
    ensures m in ks && forall k :: k in ks ==> m <= k
  {
    LeastExists(ks);
    var m :| m in ks && forall k :: k in ks ==> m <= k;
    m
  }

  lemma {:induction false} LeastExists(ks: set<Key>)
    requires ks != {}
    ensures exists m :: m in ks && forall k :: k in ks ==> m <= k
    decreases |ks|
  {
    assert exists x :: x in ks by {
      if forall x :: x !in ks {
        assert false;
      }
    }
    var x :| x in ks;
    var rest := ks - {x};
    if rest == {} {
      forall k | k in ks ensures x <= k {
        assert k !in rest;
      }
    } else {
      LeastExists(rest);
      var m :| m in rest && forall k :: k in rest ==> m <= k;
      var least := if x < m then x else m;
      forall k | k in ks ensures least <= k {
        if k != x { assert k in rest; }
      }
      assert least in ks;
    }
  }
}

=== FILE: records.dfy ===
/**
 * The five kinds of record the application keeps, as stored (without their
 * `id`, which is the key they are stored under), and the JavaScript
 * truthiness rules the code applies to optional numbers.
 */
module Records {
  import opened Wrappers
  import opened KeyGenerators
  import ObjectStores

  /** A record together with the key it is stored under, as `get` and `getAll` return it (`id`). */
  type Keyed<V> = ObjectStores.Keyed<V>

  /** A task or event.  `time` is "" for an all-day task; `kind` is the `type` field. */
  datatype Task = Task(
    name: string,
    kind: string,
    assignee: string,
    date: string,
    time: string,
    journalEntryId: Option<Key>)

  /** A store a shopping list belongs to. */
  datatype Store = Store(name: string)

  /** One entry of a store's shopping list. */
  datatype ShoppingItem = ShoppingItem(storeId: Key, name: string, completed: bool)

  /** A family member; `birthday` is absent when the form field was left empty. */
  datatype FamilyMember = FamilyMember(name: string, birthday: Option<string>)

  /** A journal entry; `date` is stamped with the day it was last saved. */
  datatype JournalEntry = JournalEntry(date: string, title: string, content: string)

  /** A JavaScript number that may be undefined, null or NaN (all `None`) is truthy when present and not 0. */
  predicate Truthy(n: Option<int>) {
    n.Some? && n.value != 0
  }

  /** JavaScript `a || b` on optional numbers. */
  function Or(a: Option<int>, b: Option<int>): (r: Option<int>)
    ensures Truthy(a) ==> r == a
    ensures !Truthy(a) ==> r == b
  {
    if Truthy(a) then a else b
  }

  /**
   * A number handed to a modal as a parameter, where `NaN` (a failed
   * `parseInt`) must be kept apart from `undefined`/`null`: a record carrying
   * it as its key cannot be stored.
   */
  datatype Param = Undefined | NaN | Number(n: int)

  /** The number a parameter holds, with NaN and undefined both read as absent. */
  function ParamValue(p: Param): Option<int> {
    if p.Number? then Some(p.n) else None
  }

  /** JavaScript's truth test on a parameter is the one on numbers. */
  predicate ParamTruthy(p: Param) {
    Truthy(ParamValue(p))
  }

  /** JavaScript `a || b` on parameters: a truthy `a` wins, otherwise `b`, whatever it is. */
  function ParamOr(a: Param, b: Param): (r: Param)
    ensures ParamTruthy(a) ==> r == a
    ensures !ParamTruthy(a) ==> r == b
  {
    if ParamTruthy(a) then a else b
  }

  /** JavaScript `n || undefined`: keeps a truthy number and turns 0 (or NaN) into undefined. */
  function OrUndefined(n: Option<int>): (r: Option<int>)
    ensures Truthy(r) <==> Truthy(n)
    ensures r.Some? ==> r == n
    ensures !Truthy(n) ==> r.None?
  {
    if Truthy(n) then n else None
  }
}

=== FILE: sequences.dfy ===
/** `Array.prototype.filter`, a counting reference for it, and `Array.prototype.sort` by a string key. */
module Sequences {
  import opened Strings

  /** `s.filter(p)`: exactly the elements of `s` that satisfy `p`, each as often as in `s`. */
  function Filter<T(==,!new)>(s: seq<T>, p: T -> bool): (r: seq<T>)
    ensures |r| <= |s|
    ensures forall i :: 0 <= i < |r| ==> p(r[i])
    ensures forall x :: multiset(r)[x] == if p(x) then multiset(s)[x] else 0
  {
    if s == [] then []
    else
      var rest := Filter(s[1..], p);
      assert s == [s[0]] + s[1..];
      if p(s[0]) then [s[0]] + rest else rest
  }

  /**
   * `filter` keeps order: filtering a concatenation concatenates the filtered
   * parts.  With `FilterCons` this determines the result from the order of `s`.
   */
  lemma {:induction false} FilterKeepsOrder<T(!new)>(s: seq<T>, t: seq<T>, p: T -> bool)
    ensures Filter(s + t, p) == Filter(s, p) + Filter(t, p)
  {
    if s == [] {
      assert s + t == t;
    } else {
      var x, tail := s[0], s[1..];
      assert s == [x] + tail;
      assert s + t == [x] + (tail + t);
      var ft, fu := Filter(tail, p), Filter(t, p);
      if p(x) {
        calc {
          Filter(s + t, p);
        == { FilterCons(x, tail + t, p); }
          [x] + Filter(tail + t, p);
        == { FilterKeepsOrder(tail, t, p); }
          [x] + (ft + fu);
        == { assert [x] + (ft + fu) == ([x] + ft) + fu; }
          ([x] + ft) + fu;
        == { FilterCons(x, tail, p); }
          Filter(s, p) + fu;
        }
      } else {
        calc {
          Filter(s + t, p);
        == { FilterCons(x, tail + t, p); }
          Filter(tail + t, p);
        == { FilterKeepsOrder(tail, t, p); }
          ft + fu;
        == { FilterCons(x, tail, p); }
          Filter(s, p) + fu;
        }
      }
    }
  }

  /** The first element is kept exactly when it passes, ahead of the filtered rest. */
  lemma FilterCons<T(!new)>(x: T, s: seq<T>, p: T -> bool)
    ensures Filter([x] + s, p) == if p(x) then [x] + Filter(s, p) else Filter(s, p)
  {
    assert ([x] + s)[1..] == s;
  }

  /** The number of elements of `s` that satisfy `p`. */
  function Count<T>(s: seq<T>, p: T -> bool): (n: nat)
    ensures n <= |s|
  {
    if s == [] then 0 else (if p(s[0]) then 1 else 0) + Count(s[1..], p)
  }

  /** `s.filter(p).length` is the number of elements satisfying `p`. */
  lemma {:induction false} FilterLength<T(!new)>(s: seq<T>, p: T -> bool)
    ensures |Filter(s, p)| == Count(s, p)
  {
    if s != [] {
      FilterLength(s[1..], p);
    }
  }

  /** Some element satisfies `p` exactly when the count is positive. */
  lemma {:induction false} CountPositive<T>(s: seq<T>, p: T -> bool)
    ensures Count(s, p) > 0 <==> exists i :: 0 <= i < |s| && p(s[i])
  {
    if s != [] {
      CountPositive(s[1..], p);
      if p(s[0]) {
        assert p(s[0]);
      } else if exists i :: 0 <= i < |s| && p(s[i]) {
        var i :| 0 <= i < |s| && p(s[i]);
        assert p(s[1..][i - 1]);
      }
    }
  }

  /** The comparator order: ascending, or descending (`b.localeCompare(a)`). */
  predicate InOrder(a: string, b: string, descending: bool) {
    if descending then LexLe(b, a) else LexLe(a, b)
  }

  predicate SortedBy<T>(s: seq<T>, key: T -> string, descending: bool) {
    forall i, j :: 0 <= i < j < |s| ==> InOrder(key(s[i]), key(s[j]), descending)
  }

  lemma InOrderTotal(a: string, b: string, descending: bool)
    ensures InOrder(a, b, descending) || InOrder(b, a, descending)
  {
    LexLeTotal(a, b);
  }

  lemma InOrderTransitive(a: string, b: string, c: string, descending: bool)
    requires InOrder(a, b, descending) && InOrder(b, c, descending)
    ensures InOrder(a, c, descending)
  {
    if descending { LexLeTransitive(c, b, a); } else { LexLeTransitive(a, b, c); }
  }

  /** Every element of `s` follows `x` in the comparator order. */
  predicate Bounds<T>(x: T, s: seq<T>, key: T -> string, descending: bool) {
    forall j :: 0 <= j < |s| ==> InOrder(key(x), key(s[j]), descending)
  }

  /** A lower bound of a sorted list can go in front of it. */
  lemma {:induction false} PrependSorted<T>(x: T, s: seq<T>, key: T -> string, descending: bool)
    requires SortedBy(s, key, descending) && Bounds(x, s, key, descending)
    ensures SortedBy([x] + s, key, descending)
  {
    forall i, j | 0 <= i < j < |[x] + s|
      ensures InOrder(key(([x] + s)[i]), key(([x] + s)[j]), descending)
    {
      assert ([x] + s)[j] == s[j - 1];
      if i > 0 { assert ([x] + s)[i] == s[i - 1]; }
    }
  }

  /** What goes before the head of a sorted list goes before all of it. */
  lemma {:induction false} BoundsViaHead<T>(x: T, s: seq<T>, key: T -> string, descending: bool)
    requires SortedBy(s, key, descending) && s != [] && InOrder(key(x), key(s[0]), descending)
    ensures Bounds(x, s, key, descending)
  {
    forall j | 0 < j < |s| ensures InOrder(key(x), key(s[j]), descending) {
      InOrderTransitive(key(x), key(s[0]), key(s[j]), descending);
    }
  }

  /** A bound of `t` that also goes before `x` bounds any rearrangement of `t` with `x` added. */
  lemma {:induction false} BoundsInsert<T>(y: T, x: T, t: seq<T>, rest: seq<T>, key: T -> string, descending: bool)
    requires Bounds(y, t, key, descending) && InOrder(key(y), key(x), descending)
    requires multiset(rest) == multiset(t) + multiset{x}
    ensures Bounds(y, rest, key, descending)
  {
    forall j | 0 <= j < |rest| ensures InOrder(key(y), key(rest[j]), descending) {
      assert rest[j] in multiset(rest);
      if rest[j] != x {
        assert rest[j] in multiset(t);
        var k :| 0 <= k < |t| && t[k] == rest[j];
      }
    }
  }

  /** Inserts `x` into a sorted list, before the first element it does not follow. */
  function Insert<T(==)>(x: T, s: seq<T>, key: T -> string, descending: bool): (r: seq<T>)
    requires SortedBy(s, key, descending)
    ensures SortedBy(r, key, descending)
    ensures multiset(r) == multiset(s) + multiset{x}
    ensures |r| == |s| + 1
  {
    if s == [] || InOrder(key(x), key(s[0]), descending) then
      assert Bounds(x, s, key, descending) by {
        if s != [] { BoundsViaHead(x, s, key, descending); }
      }
      PrependSorted(x, s, key, descending);
      [x] + s
    else
      var t := s[1..];
      assert s == [s[0]] + t;
      assert SortedBy(t, key, descending) by {
        forall i, j | 0 <= i < j < |t| ensures InOrder(key(t[i]), key(t[j]), descending) {
          assert t[i] == s[i + 1] && t[j] == s[j + 1];
        }
      }
      assert Bounds(s[0], t, key, descending) by {
        forall j | 0 <= j < |t| ensures InOrder(key(s[0]), key(t[j]), descending) {
          assert t[j] == s[j + 1];
        }
      }
      var rest := Insert(x, t, key, descending);
      InOrderTotal(key(x), key(s[0]), descending);
      BoundsInsert(s[0], x, t, rest, key, descending);
      PrependSorted(s[0], rest, key, descending);
      [s[0]] + rest
  }

  /**
   * `s.sort(comparator)` with a comparator on `key`: a sorted permutation of
   * `s`.  Each element goes ahead of the later elements it ties with, as the
   * stable `Array.prototype.sort` does.
   */
  function SortByKey<T(==)>(s: seq<T>, key: T -> string, descending: bool): (r: seq<T>)
    ensures SortedBy(r, key, descending)
    ensures multiset(r) == multiset(s)
    ensures |r| == |s|
  {
    if s == [] then []
    else
      assert s == [s[0]] + s[1..];
      Insert(s[0], SortByKey(s[1..], key, descending), key, descending)
  }
}

=== FILE: strings.dfy ===
/**
 * The string operations the form handlers and views rely on: `String.prototype.trim`,
 * an ASCII `toLowerCase`, and the code-unit order used in place of `localeCompare`.
 */
module Strings {

  /** ECMAScript WhiteSpace and LineTerminator code points: what `trim` removes. */
  predicate IsSpace(c: char) {
    || c == ' ' || c == '\t' || c == '\n' || c == '\r'
    || c == '\U{0B}' || c == '\U{0C}' || c == '\U{A0}' || c == '\U{FEFF}'
    || c == '\U{1680}' || ('\U{2000}' <= c <= '\U{200A}')
    || c == '\U{2028}' || c == '\U{2029}' || c == '\U{202F}' || c == '\U{205F}' || c == '\U{3000}'
  }

  predicate AllSpace(s: string) {
    forall i :: 0 <= i < |s| ==> IsSpace(s[i])
  }

  /** The number of white-space characters `s` starts with. */
  function LeadingSpace(s: string): (n: nat)
    ensures n <= |s|
    ensures forall i :: 0 <= i < n ==> IsSpace(s[i])
    ensures n < |s| ==> !IsSpace(s[n])
  {
    if s == [] || !IsSpace(s[0]) then 0 else 1 + LeadingSpace(s[1..])
  }

  /** The number of white-space characters `s` ends with. */
  function TrailingSpace(s: string): (n: nat)
    ensures n <= |s|
    ensures forall i :: |s| - n <= i < |s| ==> IsSpace(s[i])
    ensures n < |s| ==> !IsSpace(s[|s| - n - 1])
  {
    if s == [] || !IsSpace(s[|s| - 1]) then 0 else 1 + TrailingSpace(s[..|s| - 1])
  }

  /**
   * `String.prototype.trim`: `s` without its leading and trailing white space.
   * The result is blank exactly when `s` is all white space, and it keeps every
   * other character of `s`, in place.
   */
  function Trim(s: string): (r: string)
    ensures (r == []) <==> AllSpace(s)
    ensures r != [] ==> !IsSpace(r[0]) && !IsSpace(r[|r| - 1])
    ensures var lo := LeadingSpace(s);
      && lo + |r| <= |s| && s[lo..lo + |r|] == r
      && AllSpace(s[..lo]) && AllSpace(s[lo + |r|..])
  {
    var lo := LeadingSpace(s);
    if lo == |s| then []
    else
      var hi := |s| - TrailingSpace(s);
      s[lo..hi]
  }

  /** Trimming a trimmed string changes nothing. */
  lemma TrimIdempotent(s: string)
    ensures Trim(Trim(s)) == Trim(s)
  {
    var t := Trim(s);
    if t != [] {
      assert LeadingSpace(t) == 0;
      assert TrailingSpace(t) == 0;
    }
  }

  /** `toLowerCase` on one character, ASCII letters only. */
  function LowerChar(c: char): (d: char)
    ensures 'A' <= c <= 'Z' ==> 'a' <= d <= 'z' && d as int == c as int + 32
    ensures !('A' <= c <= 'Z') ==> d == c
  {
    if 'A' <= c <= 'Z' then (c as int - 'A' as int + 'a' as int) as char else c
  }

  /** `toLowerCase`, restricted to ASCII letters. */
  function Lower(s: string): (r: string)
    ensures |r| == |s|
    ensures forall i :: 0 <= i < |s| ==> r[i] == LowerChar(s[i])
    ensures forall i :: 0 <= i < |r| ==> !('A' <= r[i] <= 'Z')
  {
    seq(|s|, i requires 0 <= i < |s| => LowerChar(s[i]))
  }

  /** `a.toLowerCase() === b.toLowerCase()`. */
  predicate SameIgnoringCase(a: string, b: string) {
    Lower(a) == Lower(b)
  }

  /** `a` comes no later than `b` in code-unit order. */
  predicate LexLe(a: string, b: string)
    decreases |a|
  {
    a == [] || (b != [] && (a[0] < b[0] || (a[0] == b[0] && LexLe(a[1..], b[1..]))))
  }

  lemma {:induction false} LexLeTotal(a: string, b: string)
    ensures LexLe(a, b) || LexLe(b, a)
    decreases |a|
  {
    if a != [] && b != [] && a[0] == b[0] {
      LexLeTotal(a[1..], b[1..]);
    }
  }

  lemma {:induction false} LexLeTransitive(a: string, b: string, c: string)
    requires LexLe(a, b) && LexLe(b, c)
    ensures LexLe(a, c)
    decreases |a|
  {
    if a != [] && a[0] == b[0] && b[0] == c[0] {
      LexLeTransitive(a[1..], b[1..], c[1..]);
    }
  }

  lemma {:induction false} LexLeAntisymmetric(a: string, b: string)
    requires LexLe(a, b) && LexLe(b, a)
    ensures a == b
    decreases |a|
  {
    if a != [] {
      LexLeAntisymmetric(a[1..], b[1..]);
      assert a == [a[0]] + a[1..];
      assert b == [b[0]] + b[1..];
    }
  }
}

=== FILE: utils.dfy ===
/**
 * The two helpers of utils.js: `getTaskIcon`, a lookup in a table of eight
 * task types with a default, and the empty-input branch of `formatTime`.
 */
module Utils {
  import opened Wrappers

  /** The icon for a type outside the table. */
  const DefaultIcon: string := "fa-calendar-day"

  /** The task types the task form offers, each with its Font Awesome icon class. */
  const IconTable: map<string, string> := map[
    "Doctor" := "fa-stethoscope",
    "Dentist" := "fa-tooth",
    "School" := "fa-school-bus",
    "Work" := "fa-building",
    "Meeting" := "fa-users",
    "Chore" := "fa-broom",
    "Appointment" := "fa-calendar-check",
    "Errand" := "fa-person-running"]

  predicate IsIconClass(s: string) { |s| > 3 && s[..3] == "fa-" }

  /**
   * `getTaskIcon` as evidently intended: the table's icon for a listed type
   * and the default for every other string.
   */
  function TaskIcon(kind: string): (icon: string)
    ensures kind !in IconTable ==> icon == DefaultIcon
    ensures kind in IconTable ==> icon == IconTable[kind]
    ensures IsIconClass(icon)
  {
    if kind in IconTable then IconTable[kind] else DefaultIcon
  }

  /** The eight listed types get eight different icons, none of them the default. */
  lemma TaskIconsDistinct(a: string, b: string)
    requires a in IconTable && b in IconTable && a != b
    ensures TaskIcon(a) != TaskIcon(b)
    ensures TaskIcon(a) != DefaultIcon
  {
  }

  /**
   * The names every plain JavaScript object inherits from `Object.prototype`;
   * indexing an object literal with one of them yields the inherited member.
   */
  const InheritedNames: set<string> := {
    "constructor", "__proto__", "hasOwnProperty", "isPrototypeOf",
    "propertyIsEnumerable", "toLocaleString", "toString", "valueOf",
    "__defineGetter__", "__defineSetter__", "__lookupGetter__", "__lookupSetter__"}

  /** A JavaScript value as far as `getTaskIcon` can return one: a string, or a member inherited from `Object.prototype`. */
  datatype JsValue = Str(s: string) | Inherited(name: string)

  /**
   * `getTaskIcon` as written: `{...}[type] || 'fa-calendar-day'` on an object
   * literal, whose lookup also finds the inherited members (all truthy).
   */
  function TaskIconAsWritten(kind: string): (v: JsValue)
    ensures kind in IconTable ==> v == Str(TaskIcon(kind))
    ensures kind !in IconTable && kind !in InheritedNames ==> v == Str(TaskIcon(kind))
    ensures kind in InheritedNames ==> v.Inherited?
  {
    if kind in IconTable then Str(IconTable[kind])
    else if kind in InheritedNames then Inherited(kind)
    else Str(DefaultIcon)
  }

  /** The as-written lookup agrees with the intended one exactly off the inherited names. */
  lemma {:induction false} AsWrittenAgreesOffInherited(kind: string)
    ensures TaskIconAsWritten(kind) == Str(TaskIcon(kind)) <==> kind !in InheritedNames
  {
    assert forall n :: n in InheritedNames ==> n !in IconTable;
  }

  /** A stored task of type "toString" gets the inherited function instead of the default icon. */
  lemma ToStringEscapesDefault()
    ensures TaskIconAsWritten("toString") == Inherited("toString")
    ensures TaskIcon("toString") == DefaultIcon
  {
    assert "toString" !in IconTable;
  }

  /**
   * `formatTime` on an empty or missing time: the empty string.  A non-empty
   * time is handed to the locale formatter, which is a parameter here.
   */
  function FormatTime(time: Option<string>, localized: string -> string): (r: string)
    ensures time.None? || time.value == "" ==> r == ""
  {
    if time.None? || time.value == "" then "" else localized(time.value)
  }
}

=== FILE: views.dfy ===
/**
 * The data each view of js/ui.js derives from `appData` before it builds its
 * HTML: the dashboard's split of today's tasks, the shopping counts, a store's
 * list and the calendar's events (the journal's order is `AppState.RenderJournal`).
 */
module Views {
  import opened KeyGenerators
  import opened Records
  import opened Sequences
  import ObjectStores
  import opened AppState

  function TimeOf(t: Keyed<Task>): string { t.value.time }

  /** `!i.completed`: an item still to buy. */
  predicate Needed(i: Keyed<ShoppingItem>) { !i.value.completed }

  /** What the dashboard shows: the two task lists, the shopping count and which fallback rows appear. */
  datatype Dashboard = Dashboard(
    timed: seq<Keyed<Task>>,
    daily: seq<Keyed<Task>>,
    shoppingNeeded: nat,
    noTimedEvents: bool,
    shoppingRow: bool,
    noDailyTasks: bool)

  /** Tasks dated `today` that have a time. */
  predicate TimedOn(t: Keyed<Task>, today: string) { t.value.date == today && t.value.time != "" }

  /** Tasks dated `today` without a time. */
  predicate DailyOn(t: Keyed<Task>, today: string) { t.value.date == today && t.value.time == "" }

  /** `timedTasks`: today's tasks that have a time, sorted by time. */
  function TimedTasks(tasks: seq<Keyed<Task>>, today: string): (r: seq<Keyed<Task>>)
    ensures forall t :: multiset(r)[t] == if TimedOn(t, today) then multiset(tasks)[t] else 0
    ensures SortedBy(r, TimeOf, false)
  {
    var allToday := Filter(tasks, (t: Keyed<Task>) => t.value.date == today);
    SortByKey(Filter(allToday, (t: Keyed<Task>) => t.value.time != ""), TimeOf, false)
  }

  /** `dailyTasks`: today's tasks without a time, in cache order. */
  function DailyTasks(tasks: seq<Keyed<Task>>, today: string): (r: seq<Keyed<Task>>)
    ensures forall t :: multiset(r)[t] == if DailyOn(t, today) then multiset(tasks)[t] else 0
  {
    var allToday := Filter(tasks, (t: Keyed<Task>) => t.value.date == today);
    Filter(allToday, (t: Keyed<Task>) => t.value.time == "")
  }

  /**
   * `renderDashboard`: today's tasks with a time, sorted by time, and those
   * without; the number of items still needed; "No timed events scheduled."
   * when there is no timed task today, the shopping row when something is
   * needed, and "No daily tasks." when there is neither a daily task nor a
   * needed item.
   */
  function RenderDashboard(data: AppData, today: string): (d: Dashboard)
    ensures forall t :: multiset(d.timed)[t] == if TimedOn(t, today) then multiset(data.tasks)[t] else 0
    ensures forall t :: multiset(d.daily)[t] == if DailyOn(t, today) then multiset(data.tasks)[t] else 0
    ensures SortedBy(d.timed, TimeOf, false)
    ensures d.shoppingNeeded == Count(data.shoppingLists, Needed)
    ensures d.noTimedEvents <==> forall t :: t in data.tasks ==> !TimedOn(t, today)
    ensures d.shoppingRow <==> exists i :: 0 <= i < |data.shoppingLists| && Needed(data.shoppingLists[i])
    ensures d.noDailyTasks <==>
              && (forall t :: t in data.tasks ==> !DailyOn(t, today))
              && Count(data.shoppingLists, Needed) == 0
  {
    var timed := TimedTasks(data.tasks, today);
    var daily := DailyTasks(data.tasks, today);
    var needed := |Filter(data.shoppingLists, Needed)|;
    FilterLength(data.shoppingLists, Needed);
    CountPositive(data.shoppingLists, Needed);
    EmptyIffNone(timed, data.tasks, (t: Keyed<Task>) => TimedOn(t, today));
    EmptyIffNone(daily, data.tasks, (t: Keyed<Task>) => DailyOn(t, today));
    Dashboard(timed, daily, needed, |timed| == 0, needed > 0, |daily| == 0 && needed == 0)
  }

  /** A list holding exactly the elements of `s` that satisfy `p` is empty iff none does. */
  lemma EmptyIffNone<T(!new)>(r: seq<T>, s: seq<T>, p: T -> bool)
    requires forall x :: multiset(r)[x] == if p(x) then multiset(s)[x] else 0
    ensures |r| == 0 <==> forall x :: x in s ==> !p(x)
  {
    if |r| != 0 {
      assert multiset(r)[r[0]] > 0;
    } else {
      forall x | x in s ensures !p(x) {
        assert multiset(s)[x] > 0;
      }
    }
  }

  /**
   * Every task dated today appears in exactly one of the dashboard's two
   * lists, and no task of another day appears in either.
   */
  lemma DashboardSplitsToday(data: AppData, today: string)
    ensures var d := RenderDashboard(data, today);
      && (forall t :: (multiset(d.timed) + multiset(d.daily))[t]
                      == if t.value.date == today then multiset(data.tasks)[t] else 0)
      && forall t :: t in d.timed || t in d.daily ==> t.value.date == today
  {
    var d := RenderDashboard(data, today);
    forall t ensures (multiset(d.timed) + multiset(d.daily))[t]
                     == if t.value.date == today then multiset(data.tasks)[t] else 0 {
      assert multiset(d.timed)[t] == if TimedOn(t, today) then multiset(data.tasks)[t] else 0;
      assert multiset(d.daily)[t] == if DailyOn(t, today) then multiset(data.tasks)[t] else 0;
    }
    forall t | t in d.timed || t in d.daily ensures t.value.date == today {
      if t in d.timed { assert multiset(d.timed)[t] > 0; } else { assert multiset(d.daily)[t] > 0; }
    }
  }

  /** One store's row in the shopping view. */
  datatype StoreSummary = StoreSummary(store: Keyed<Store>, items: seq<Keyed<ShoppingItem>>, needed: nat)

  /** The row lists exactly the items of that store and counts those still needed. */
  ghost predicate Summarises(line: StoreSummary, items: seq<Keyed<ShoppingItem>>) {
    && (forall x :: multiset(line.items)[x] ==
          if x.value.storeId == line.store.id then multiset(items)[x] else 0)
    && line.needed == Count(line.items, Needed)
    && line.needed <= |line.items|
  }

  function Summary(store: Keyed<Store>, items: seq<Keyed<ShoppingItem>>): (line: StoreSummary)
    ensures line.store == store && Summarises(line, items)
  {
    var mine := Filter(items, (i: Keyed<ShoppingItem>) => i.value.storeId == store.id);
    FilterLength(mine, Needed);
    StoreSummary(store, mine, |Filter(mine, Needed)|)
  }

  /** `renderShopping`: one row per cached store, in cache order; none when there are no stores. */
  function RenderShopping(data: AppData): (lines: seq<StoreSummary>)
    ensures |lines| == |data.stores|
    ensures forall i :: 0 <= i < |lines| ==>
              lines[i].store == data.stores[i] && Summarises(lines[i], data.shoppingLists)
  {
    seq(|data.stores|, i requires 0 <= i < |data.stores| => Summary(data.stores[i], data.shoppingLists))
  }

  /** What `renderListDetail` shows: the store's name (or "") and its items. */
  datatype ListDetail = ListDetail(title: string, items: seq<Keyed<ShoppingItem>>)

  /** The name of the first cached store with this id, "" when there is none (`store?.name || ''`). */
  function StoreTitle(stores: seq<Keyed<Store>>, storeId: Key): (title: string)
    ensures (forall i :: 0 <= i < |stores| ==> stores[i].id != storeId) ==> title == ""
    ensures forall i :: (0 <= i < |stores| && stores[i].id == storeId
              && forall j :: 0 <= j < i ==> stores[j].id != storeId) ==> title == stores[i].value.name
  {
    if stores == [] then ""
    else if stores[0].id == storeId then stores[0].value.name
    else StoreTitle(stores[1..], storeId)
  }

  /** `renderListDetail`: the items whose `storeId` is the store's id. */
  function RenderListDetail(storeId: Key, data: AppData): (r: ListDetail)
    ensures r.title == StoreTitle(data.stores, storeId)
    ensures forall x :: multiset(r.items)[x] ==
              if x.value.storeId == storeId then multiset(data.shoppingLists)[x] else 0
  {
    ListDetail(StoreTitle(data.stores, storeId),
               Filter(data.shoppingLists, (i: Keyed<ShoppingItem>) => i.value.storeId == storeId))
  }
  /** An item of the cache with the store's id appears on that store's page. */
  lemma ListedOnItsPage(storeId: Key, data: AppData, item: Keyed<ShoppingItem>)
    requires item in data.shoppingLists && item.value.storeId == storeId
    ensures item in RenderListDetail(storeId, data).items
  {
    assert multiset(data.shoppingLists)[item] > 0;
    assert multiset(RenderListDetail(storeId, data).items)[item] > 0;
  }


  /** `renderCalendar`'s events: exactly the tasks that have a time. */
  function CalendarEvents(data: AppData): (events: seq<Keyed<Task>>)
    ensures forall t :: multiset(events)[t] == if t.value.time != "" then multiset(data.tasks)[t] else 0
  {
    Filter(data.tasks, (t: Keyed<Task>) => t.value.time != "")
  }
}

=== FILE: wrappers.dfy ===
/** `Option` and `Result`, shared by every module of the model. */
module Wrappers {

  /** A JavaScript value that may be `undefined` (or `null`). */
  datatype Option<+T> = None | Some(value: T)

  /** The outcome of an awaited step: a resolved value or a rejection. */
  datatype Result<+T, +E> = Ok(value: T) | Err(error: E)
}

/** The ways a step of the application can reject. */
module Errors {

  datatype Error =
    /** `dbRequest` called while the module's `db` handle is still null. */
    | NotInitialized
    /** The named object store does not exist in the open database. */
    | NotFoundError
    /** A write that would overwrite under `add`, or a used-up key generator. */
    | ConstraintError
    /** The persisted database has a newer version than the one requested. */
    | VersionError
    /** A property read on `undefined` (or on the initial empty `appData`). */
    | TypeError
    /** A record whose key path yields no valid key (`id: NaN`). */
    | DataError
}
